=== FILE: README.md ===
# Enrollment workflow — a Dafny model

This project models the service layer of a school enrollment system. A
student submits an **enlistment**, an application for one school year and
semester. An adviser pre-approves it or returns it. Finance then clears the
enlistment or puts it on hold, either for an unpaid balance or for an
academic issue. The adviser gives final approval and sets the next-term
subject list. Finance sets the two dues, the enlistment fee and tuition. A
student may claim a payment, and finance records payments into the two fee
buckets. Any overpayment is credited to the student's finance account, and
enrollment is confirmed once tuition is fully paid. Two small accessors from
the data model are modelled as well: the single enrollment-window row and
the self-seeding student profile menu.

Every service is a pure function from a database value `Db` to
`Result<Db, Error>`, except `Fees.RecordPayment`, which returns
`Result<Recorded, Error>`: the new `Db` together with whether the bucket is
now full, the overpayment credited and the bucket used. The source runs
each service in one atomic transaction, so a refused call changes nothing;
in the model the caller keeps its old `Db` on `Err`. `Error` has one value
per kind of refusal; within one service every raise has its own value, so
the order of the checks is visible in the contracts. Money is
held in integer cents.

Modules:

- `Outcomes`: `Option` and `Result`.
- `Accounts`: users and their roles.
- `Text`: ASCII upper-casing, substring search and the order on strings.
- `Models`: the records and the constraints the storage layer and the services keep together.
- `Guards`: the role check, the errors and the shared record update.
- `Approvals`: submit, pre-approve, return, finance review and final approval.
- `Fees`: set amount, claim a payment and record a payment.
- `Workflow`: every service as one step, the status transition table and the invariants.
- `EnrollmentWindows`: the single window row.
- `ProfileMenu`: the side menu.

Some behaviours of the code are easy to miss, and the model keeps them as
written:

- Recording a payment sets the payment status to SUCCESS whenever the
  bucket just paid is full. That includes the enlistment-fee bucket, not
  only tuition.
- The states FINANCE_HOLD_BALANCE, FINANCE_HOLD_ACADEMIC, ENROLLED and
  REJECTED have no way out through the services. No service ever sets
  REJECTED (`Workflow.StuckStatesStay`, `Workflow.RejectionIsUntouched`).
- Suppose finance reviews an eligible student with `approve_if_ok` false.
  The enlistment goes to FINANCE_HOLD_ACADEMIC with an empty hold reason.
- Suppose finance lowers a due below what was already paid into that
  bucket. The next recording clamps the paid figure down to the new due,
  and it credits the whole payment as overpayment (`Fees.SettleAboveDue`).
- Final approval with a non-empty id list that matches no catalogue subject
  still succeeds, with no subject rows.

## Model

| member | source | states |
|---|---|---|
| Approvals.FindActive | enrollment/services.py:57-62 | Finds an enlistment of the student for the term that is not rejected exactly when one exists |
| Guards.HasRole | enrollment/services.py:16-18 | A caller passes the role check iff signed in and holding one of the allowed roles; an anonymous caller never passes |
| Guards.Balance | enrollment/services.py:43-44 | The balance of the student's finance account, and 0 when the student has none |
| Approvals.Submit | enrollment/services.py:55-81 | Refused with the already-submitted error iff a non-rejected enlistment exists for the same student and term; otherwise appends exactly one new enlistment, the one `Models.NewEnlistment` describes for the student, term, category, program and notes, plus one SUBMITTED log entry, and changes nothing else |
| Approvals.Preapprove | enrollment/services.py:83-98 | Succeeds iff the caller is an adviser and the enlistment is SUBMITTED or RETURNED; the role is checked first; moves it to FINANCE_REVIEW, clears the hold reason, records the adviser and logs PREAPPROVED; no other field or record changes |
| Approvals.ReturnForRevision | enrollment/services.py:100-114 | Succeeds iff the caller is an adviser and the enlistment is SUBMITTED or FINANCE_APPROVED; sets RETURNED with the given reason as hold reason and logs RETURNED; nothing else changes |
| Approvals.HasFailedSubject | enrollment/services.py:49 | True exactly when some earlier-term subject record of the student is not passed |
| Approvals.CanFinanceApprove | enrollment/services.py:41-53 | A positive balance gives the unpaid-balance reason; otherwise a failed earlier subject gives the academic reason; otherwise there is no issue (a missing account counts as balance 0) |
| Approvals.ReasonText | enrollment/services.py:46-51 | The text stored as hold reason is empty exactly when there is no issue; a balance hold and an academic hold each carry a non-empty message (which of the two mentions the balance is `Approvals.MentionsBalanceMatchesText`) |
| Approvals.MentionsBalanceMatchesText | enrollment/services.py:122-133 | Of the texts `can_finance_approve` returns, the lower-cased one contains "balance" exactly for the unpaid-balance reason, never for the academic or the empty one, so the code-level hold choice is the source's substring test |
| Approvals.Review | enrollment/services.py:122-136 | Cleared with an empty reason iff there is no issue and `approve_if_ok` is set; an unpaid-balance reason holds on the balance; any other outcome holds as academic; every hold stores the reason's text as hold reason; the finance checker is recorded and no other field changes |
| Approvals.FinanceReviewStep | enrollment/services.py:116-150 | Succeeds iff the caller is finance and the enlistment awaits finance review; the result is FINANCE_APPROVED iff the balance is at most 0, no subject failed and `approve_if_ok` is set; a positive balance always holds on the balance; a held enlistment's hold reason is the text of the eligibility reason; one entry is logged, FINANCE_REVIEWED when cleared and FINANCE_HELD otherwise |
| Approvals.Select | enrollment/services.py:162 | A subject is selected iff it is in the catalogue and in the requested ids; no duplicates when the catalogue has none |
| Approvals.Without | enrollment/services.py:161 | Keeps exactly the subject rows of other enlistments |
| Approvals.RowsFor | enrollment/services.py:163-164 | One row for the enlistment per given subject, and no other rows |
| Approvals.ReplaceSubjects | enrollment/services.py:160-164 | Afterwards the enlistment's subjects are exactly the requested catalogue subjects; the rows of other enlistments are unchanged; (enlistment, subject) pairs stay unique |
| Approvals.FinalApprove | enrollment/services.py:152-190 | Succeeds iff the caller is an adviser, the enlistment is FINANCE_APPROVED and the id list is non-empty, each refusal in source order; sets APPROVED_FOR_PAYMENT with the final approver and an empty reason; replaces the subject list; puts an existing payment back to PENDING and changes nothing else in it, or creates a zero PENDING payment; logs FINAL_APPROVED |
| Approvals.ResetPayment | enrollment/services.py:177-189 | After final approval the enlistment has a PENDING payment: an existing record keeps every field but its status, a missing one is created with zero amounts; other payments are untouched |
| Fees.StudentKind | enrollment/services.py:209-220 | A student's claim goes to the enlistment-fee bucket iff the kind upper-cases to ENLISTMENT; anything else is tuition |
| Fees.FinanceKind | enrollment/services.py:283-286 | An explicit ENLISTMENT or TUITION in any letter case decides the bucket; otherwise the enlistment fee is chosen iff DOWNPAYMENT occurs at some position of the upper-cased reference |
| Fees.KindIgnoresCase | enrollment/services.py:283-286 | Upper-casing the kind or the reference first never changes the chosen bucket, for claims and for recordings |
| Fees.StudentKindDefaults | enrollment/services.py:209 | No kind means tuition, and "Enlistment" means the enlistment fee |
| Fees.FinanceKindDefaults | enrollment/services.py:283-286 | With no kind, a "downpayment" reference selects the enlistment fee and an empty reference selects tuition |
| Fees.SetAmount | enrollment/services.py:243-264 | Succeeds iff the caller is finance, in any enlistment state; sets both dues and makes the legacy amount equal to tuition; paid figures, status, other payments and all enlistments are unchanged; creates the payment if missing; logs AMOUNT_SET |
| Fees.MarkPaid | enrollment/services.py:192-241 | Succeeds iff the caller is signed in and owns the enlistment, it is APPROVED_FOR_PAYMENT, 0 < amount <= the chosen bucket's due, and the enlistment fee is already paid for a tuition claim; an anonymous caller owns nothing and is refused as not theirs; ownership is checked before state; for the owner of an enlistment approved for payment, each validation refusal (non-positive amount, fee not set, enlistment fee unpaid, amount above the due) has its own error, in source order; on success only the submitted amount, SUBMITTED status, reference and legacy amount of that payment change, and one PAYMENT_RECORDED entry is logged |
| Fees.PaymentOf | enrollment/services.py:199-206 | The enlistment's payment record, or, when there is none, a fresh PENDING record with zero dues, zero paid figures and an unpaid enlistment fee |
| Fees.Settle | enrollment/services.py:292-325 | The new paid figure never exceeds the due; the bucket is full iff the paid figure reaches the due; when the prior paid figure was within the due, the overpayment is whatever exceeds the part still owed; when it was above the due, the whole amount is overpayment |
| Fees.Stamp | enrollment/services.py:294-311 | Only the chosen bucket's paid figure changes; status is SUCCESS iff full and PENDING otherwise; the enlistment-fee flag follows a full enlistment-fee payment; the claim fields are stamped |
| Fees.Credit | enrollment/services.py:324-330 | The balance drops by the overpayment; an account is created only when there is a positive overpayment; no other account changes |
| Fees.Book | enrollment/services.py:288-351 | The booking once every check has passed: the chosen bucket's paid figure becomes min(prior + amount, due), the other bucket and both dues stay, and the payment is stamped; the student's balance falls by exactly the overpayment, which is max(0, prior + amount - due) while the prior paid figure is within the due and the whole amount when it is above it, and an account is opened only for a positive credit; the enlistment becomes ENROLLED iff tuition is now fully paid and nothing else about it changes; the log gains PAYMENT_RECORDED, then ENROLLED when enrolled; no other record changes |
| Fees.RecordPayment | enrollment/services.py:266-352 | Succeeds iff the caller is finance, the enlistment is APPROVED_FOR_PAYMENT, amount > 0, the chosen due is set, and the enlistment fee is paid before any tuition payment; role, state, amount, unset enlistment fee, unpaid enlistment fee and unset tuition fee are each refused with their own error, in source order; on success it has every bucket, credit and enrollment effect above |
| Fees.SettleConservesMoney | enrollment/services.py:324-325 | While the paid figure is within the due, what the bucket absorbs plus the overpayment equals the amount paid, and the paid figure does not go down |
| Fees.SettleAboveDue | enrollment/services.py:303-325 | If the due was lowered below the paid figure, the paid figure drops to the due and the whole payment is credited as overpayment |
| Fees.RecordPaymentMonotone | enrollment/services.py:288-325 | While a bucket is within its due, recording never lowers it, never pushes it past the due and strictly raises it when it was not yet full; the other bucket is unchanged; absorbed + overpayment = amount |
| Models.NewEnlistment | enrollment/services.py:66-74 | A new enlistment is SUBMITTED for the given student and term with the given category, program and notes, an empty hold reason and no reviewers |
| Models.NewRecordDefaults | enrollment/services.py:178-186 | A created payment is PENDING with zero amounts and an unpaid enlistment fee; a created finance account has balance 0 |
| Text.Lower | enrollment/services.py:129 | Lower-casing keeps the length, leaves no ASCII upper-case letter, shifts A..Z by 32 and keeps every other character |
| Text.Upper | enrollment/services.py:209 | Upper-casing keeps the length, leaves no ASCII lower-case letter, shifts a..z by 32 and keeps every other character |
| Text.ContainsIffOccurs | enrollment/services.py:286 | The recursive substring test used for `in` agrees with "occurs at some index" |
| Text.StrLeTransitive | enrollment/models.py:200 | The order used for menu labels is transitive |
| ProfileMenu.Defaults | enrollment/models.py:209-226 | Fourteen seeded entries, in list order, numbered from 1, all active, with slug, label and url as listed |
| ProfileMenu.DefaultSlugsDistinct | enrollment/models.py:194-224 | The seeded slugs are pairwise different, as the unique slug column requires |
| ProfileMenu.ActiveCounts | enrollment/models.py:208 | The listing keeps every active row with its multiplicity and drops every inactive row |
| ProfileMenu.InsertKeepsSorted | enrollment/models.py:200 | Inserting into a list sorted by (order, label) keeps it sorted |
| ProfileMenu.SortSorts | enrollment/models.py:208 | The sort yields a list sorted by (order, label) |
| ProfileMenu.GetMenu | enrollment/models.py:205-227 | An empty table is seeded with the defaults and a non-empty one is untouched; the menu is sorted by (order, label) and is a permutation of the active rows |
| ProfileMenu.FirstReadShowsDefaults | enrollment/models.py:209-227 | Reading an empty table shows exactly the fourteen defaults in order |
| ProfileMenu.SecondReadSeedsNothing | enrollment/models.py:207-208 | Reading again seeds nothing and shows the same rows |
| EnrollmentWindows.GetSolo | enrollment/models.py:184-189 | Returns the first row when there is one and changes nothing; otherwise creates and returns an open row with an empty message |
| EnrollmentWindows.GetSoloIdempotent | enrollment/models.py:184-189 | A second call creates nothing and returns the same row |
| EnrollmentWindows.GetSoloAddsAtMostOne | enrollment/models.py:184-189 | The table only grows, by at most the one default row |
| Workflow.ApplyFollowsTable | enrollment/services.py:83-352 | Every successful step changes at most the status of the enlistment it works on, along a row of the independent transition table, and never removes an enlistment |
| Workflow.StuckStatesStay | enrollment/services.py:83-352 | No step moves an enlistment out of FINANCE_HOLD_BALANCE, FINANCE_HOLD_ACADEMIC, ENROLLED or REJECTED |
| Workflow.RejectionIsUntouched | enrollment/services.py:55-352 | No step makes an enlistment REJECTED or brings one back from REJECTED |
| Workflow.ApplyCreatesOnlySubmitted | enrollment/services.py:66-74 | Only a submission adds an enlistment, exactly one and SUBMITTED; every other step keeps the count |
| Workflow.RoleGating | enrollment/services.py:16-18 | An anonymous caller or one with the wrong role is refused with permission-denied by every staff step, before any other check |
| Workflow.OnlyOwnerClaims | enrollment/services.py:194-195 | A student claiming a payment on someone else's enlistment, or an anonymous request, is refused as not theirs |
| Workflow.ApplyLogs | enrollment/services.py:8-14 | Every successful step keeps the history as it was and appends one entry, or two when a recorded payment confirms enrollment; every new entry names the caller and the enlistment |
| Workflow.SubmitKeepsValid | enrollment/services.py:57-74 | A submission keeps at most one non-rejected enlistment per student and term, and the other constraints |
| Workflow.ApplyKeepsValid | enrollment/models.py:119-136 | Every step keeps the constraints the storage layer and the services keep together: one non-rejected enlistment per student and term; unique (enlistment, subject) rows that refer to existing enlistments; at most one well-formed payment per enlistment; a payment for every enlistment approved for payment or enrolled |
| Workflow.RunKeepsValid | enrollment/models.py:119-136 | Any sequence of calls, each succeeding or refused, keeps the constraints |
| Workflow.RunFromEmptyKeepsValid | enrollment/models.py:119-136 | Starting from a database with no enlistments, any sequence of calls leaves the constraints holding |
| Workflow.SubmitTwiceFails | enrollment/services.py:57-65 | Right after a successful submission the same student cannot submit again for that term |
| Workflow.ResubmitAfterRejection | enrollment/services.py:57-64 | When every earlier enlistment of the student for the term was rejected, a new submission succeeds |
| Workflow.PaymentExistsWhenPayable | enrollment/services.py:177-189 | Under the constraints, an enlistment approved for payment has a payment record |
| Workflow.ClaimNeedsFees | enrollment/services.py:199-219 | Without a payment record every claim is refused, because a freshly created record has no fee set |
| Workflow.DownpaymentThenTuition | enrollment/services.py:266-352 | With dues of 500.00 and 2000.00, paying 500.00 to the enlistment fee settles that bucket; then paying 2500.00 to tuition fills it to 2000.00, credits 500.00 (balance -500.00) and confirms enrollment |

## Left out

- `_resolve_amount_due` (enrollment/services.py:21-39) is never called by the modelled services, and it parses log messages, which are not modelled.
- Approvals.FinanceReviewStep: the source picks the balance hold by testing whether "balance" occurs in the lower-cased reason text. The model carries the reason as a code (`HoldReason`) and stores its text. `Approvals.MentionsBalanceMatchesText` proves that the code-level test agrees with the substring test on all three texts.
- History messages are not modelled, and neither are creation and update timestamps. A log entry is (actor, enlistment, action).
- Listing order by `created_at`, and listings in general, are left out. The views, forms, admin, URL routing and settings are left out too.
- The e-mail notifications in settings are not part of this model.
- Attendance records and the other display-only records after the menu in enrollment/models.py are not part of this model.
- Approvals.Submit: an anonymous submitter is outside the model. The source does no caller check there (enrollment/services.py:56-74); an anonymous user would only fail inside the database query, so `Submit` takes the student id as given.
- Concurrency is left out. Each service is one atomic step.
- Decimal(10,2) range limits are left out. Amounts are unbounded integer cents, with no overflow of `max_digits`.
- Text.Upper: upper-cases ASCII letters only; Python's `str.upper` also maps non-ASCII letters.
- Text.Lower: lower-cases A..Z only; Python's `str.lower` also maps non-ASCII letters.
- Text.StrLeTransitive: menu labels are compared by code point. The database collation may order them differently.
- `Payment` in enrollment/models.py declares only amount, submitted amount, status and reference. The services also read and write the two dues, the two paid figures and the enlistment-fee flag. The model includes these fields. The services' creation defaults name only the two dues, the legacy amount and the status. The zero paid figures and the false enlistment-fee flag of a new payment are the model's own choice, since enrollment/models.py does not declare those fields.
- `NotFound` stands for the web layer's missing-record response, so a step naming a missing enlistment is refused. The source services receive the record itself.
- Payment status FAILED is declared in enrollment/models.py:134 but no service sets it. The model declares it too.
- Category and program are kept as optional ids. The catalogue records behind them are not modelled.

=== FILE: accounts.dfy ===
/** The user record the enrollment services consume: an identity, one role
    out of a closed set, and whether the request is authenticated. */
module Accounts {

  type UserId = nat

  /** The three roles of the site. */
  datatype Role = Student | Adviser | Finance

  datatype User = User(id: UserId, role: Role, authenticated: bool)
}

=== FILE: approvals.dfy ===
/** The approval half of the enlistment workflow: a student submits, an
    adviser pre-approves or returns, finance clears or holds, and the adviser
    gives final approval with the next-term subject list. */
module Approvals {
  import opened Outcomes
  import opened Accounts
  import opened Models
  import opened Guards
  import Text

  // ---------------------------------------------------------------- submit

  /** `e` blocks a new submission by `student` for the given term. */
  predicate ActiveFor(e: Enlistment, student: UserId, schoolYear: string, semester: string)
  {
    e.student == student && e.schoolYear == schoolYear && e.semester == semester && e.status != Rejected
  }

  /** The newest enlistment that blocks a submission, if any. */
  function FindActive(es: seq<Enlistment>, student: UserId, schoolYear: string, semester: string): (r: Option<EnlistmentId>)
    ensures r.Some? ==> r.value < |es| && ActiveFor(es[r.value], student, schoolYear, semester)
    ensures r.None? ==> forall i :: 0 <= i < |es| ==> !ActiveFor(es[i], student, schoolYear, semester)
  {
    if |es| == 0 then None
    else if ActiveFor(es[|es| - 1], student, schoolYear, semester) then Some(|es| - 1)
    else FindActive(es[..|es| - 1], student, schoolYear, semester)
  }

  /** A student applies for a term. Refused while a non-rejected enlistment
      for the same term exists; otherwise exactly one new SUBMITTED
      enlistment and one SUBMITTED entry appear, and nothing else changes. */
  function Submit(db: Db, student: User, schoolYear: string, semester: string,
                  category: Option<nat>, program: Option<nat>, notes: string): (r: Result<Db, Error>)
    ensures r.Err? <==> exists i :: 0 <= i < |db.enlistments| && ActiveFor(db.enlistments[i], student.id, schoolYear, semester)
    ensures r.Err? ==> r.error == AlreadySubmittedForTerm
    ensures r.Ok? ==>
      var n := |db.enlistments|;
      && |r.value.enlistments| == n + 1
      && r.value.enlistments[..n] == db.enlistments
      && r.value.enlistments[n] == NewEnlistment(student.id, schoolYear, semester, category, program, notes)
      && r.value.history == db.history + [LogEntry(student.id, Some(n), LogSubmitted)]
      && r.value.nextSubjects == db.nextSubjects
      && r.value.payments == db.payments
      && r.value.accounts == db.accounts
      && r.value.previousSubjects == db.previousSubjects
      && r.value.catalogue == db.catalogue
  {
    match FindActive(db.enlistments, student.id, schoolYear, semester)
    case Some(_) => Err(AlreadySubmittedForTerm)
    case None =>
      var n := |db.enlistments|;
      var e := NewEnlistment(student.id, schoolYear, semester, category, program, notes);
      Ok(db.(enlistments := db.enlistments + [e],
             history := db.history + [LogEntry(student.id, Some(n), LogSubmitted)]))
  }

  // ----------------------------------------------------------- pre-approve

  /** An adviser forwards a submitted or returned enlistment to finance. */
  function Preapprove(db: Db, user: User, eid: EnlistmentId): (r: Result<Db, Error>)
    requires eid < |db.enlistments|
    ensures r.Ok? <==> HasRole(user, {Adviser}) && db.enlistments[eid].status in {Status.Submitted, Returned}
    ensures !HasRole(user, {Adviser}) ==> r == Err(PermissionDenied)
    ensures HasRole(user, {Adviser}) && r.Err? ==> r.error == NotAwaitingPreapproval
    ensures r.Ok? ==> OnlyEnlistmentChanged(db, r.value, eid)
    ensures r.Ok? ==>
      var e := db.enlistments[eid];
      var e' := r.value.enlistments[eid];
      && e'.status == FinanceReview
      && e'.holdReason == ""
      && e'.adviserPreapprovedBy == Some(user.id)
      && e'.(status := e.status, holdReason := e.holdReason, adviserPreapprovedBy := e.adviserPreapprovedBy) == e
      && r.value.history == db.history + [LogEntry(user.id, Some(eid), LogPreapproved)]
  {
    var e := db.enlistments[eid];
    if !HasRole(user, {Adviser}) then Err(PermissionDenied)
    else if e.status != Status.Submitted && e.status != Returned then Err(NotAwaitingPreapproval)
    else
      Ok(Save(db, eid, e.(status := FinanceReview, holdReason := "", adviserPreapprovedBy := Some(user.id)),
              user, LogPreapproved))
  }

  // ---------------------------------------------------------------- return

  /** An adviser sends a submitted or finance-cleared enlistment back to the
      student, recording why. */
  function ReturnForRevision(db: Db, user: User, eid: EnlistmentId, reason: string): (r: Result<Db, Error>)
    requires eid < |db.enlistments|
    ensures r.Ok? <==> HasRole(user, {Adviser}) && db.enlistments[eid].status in {Status.Submitted, FinanceApproved}
    ensures !HasRole(user, {Adviser}) ==> r == Err(PermissionDenied)
    ensures HasRole(user, {Adviser}) && r.Err? ==> r.error == NotReturnable
    ensures r.Ok? ==> OnlyEnlistmentChanged(db, r.value, eid)
    ensures r.Ok? ==>
      var e := db.enlistments[eid];
      var e' := r.value.enlistments[eid];
      && e'.status == Returned
      && e'.holdReason == reason
      && e'.(status := e.status, holdReason := e.holdReason) == e
      && r.value.history == db.history + [LogEntry(user.id, Some(eid), LogReturned)]
  {
    var e := db.enlistments[eid];
    if !HasRole(user, {Adviser}) then Err(PermissionDenied)
    else if e.status != Status.Submitted && e.status != FinanceApproved then Err(NotReturnable)
    else Ok(Save(db, eid, e.(status := Returned, holdReason := reason), user, LogReturned))
  }

  // ---------------------------------------------------------- finance check

  /** Why finance cannot clear a student. The source returns free text and
      later tests it for the word "balance"; the code names the same choice. */
  datatype HoldReason = NoIssue | UnpaidBalance | AcademicIssue

  /** The text stored as the hold reason, exactly the source's messages.
      They are written in pieces so that the proofs below can see where a
      b occurs without reading the whole text. */
  function ReasonText(r: HoldReason): (t: string)
    ensures t == "" <==> r == NoIssue
  {
    match r
    case NoIssue => ""
    case UnpaidBalance => "Unpaid " + "balance" + ". Please settle your account first."
    case AcademicIssue =>
      "Academic issue: " + "previous term " + "contains failed " + "subject(s)"
      + (". Please consult " + "your adviser.")
  }

  /** Whether the hold reason mentions the balance: of the three texts above
      only the unpaid-balance one contains the word. */
  predicate MentionsBalance(r: HoldReason)
  {
    r == UnpaidBalance
  }

  /** `MentionsBalance` agrees with the test the source applies to the text:
      "balance" occurs in the lower-cased reason exactly for an unpaid balance. */
  lemma MentionsBalanceMatchesText(r: HoldReason)
    ensures MentionsBalance(r) <==> Text.Contains(Text.Lower(ReasonText(r)), "balance")
  {
    match r
    case NoIssue =>
    case UnpaidBalance =>
      LowerKeepsBalance("Unpaid ", ". Please settle your account first.");
      Text.ContainsAt(Text.Lower(ReasonText(r)), "balance", 7);
    case AcademicIssue =>
      LacksInPieces("Academic issue: ", "previous term ", "contains failed ");
      forall i ensures !Text.OccursAt(Text.Lower(ReasonText(r)), "balance", i) {
        NoBalanceAround("Academic issue: " + "previous term " + "contains failed ", ". Please consult " + "your adviser.", i);
      }
      Text.ContainsNowhere(Text.Lower(ReasonText(r)), "balance");
  }

  /** Lower-casing leaves a lower-case "balance" where it stands. */
  lemma LowerKeepsBalance(head: string, tail: string)
    ensures Text.OccursAt(Text.Lower(head + "balance" + tail), "balance", |head|)
  {
  }

  /** Neither b nor B occurs in three short literals, hence not in their concatenation. */
  lemma LacksInPieces(a: string, b: string, c: string)
    requires Text.Lacks(a, 'b') && Text.Lacks(b, 'b') && Text.Lacks(c, 'b')
    requires Text.Lacks(a, 'B') && Text.Lacks(b, 'B') && Text.Lacks(c, 'B')
    ensures Text.Lacks(a + b + c, 'b') && Text.Lacks(a + b + c, 'B')
  {
  }

  /** Around "subject(s)", whose only b is followed by j, a text with no
      other b in either case does not contain "balance" once lower-cased. */
  lemma {:induction false} NoBalanceAround(head: string, tail: string, i: int)
    requires Text.Lacks(head, 'b') && Text.Lacks(head, 'B')
    requires Text.Lacks(tail, 'b') && Text.Lacks(tail, 'B')
    ensures !Text.OccursAt(Text.Lower(head + "subject(s)" + tail), "balance", i)
  {
    var t := head + "subject(s)" + tail;
    var low := Text.Lower(t);
    if 0 <= i && i + 7 <= |low| {
      assert low[i..i + 7][0] == low[i] && low[i..i + 7][1] == low[i + 1];
      if i < |head| {
        assert t[i] == head[i];
        assert low[i] != 'b';
      } else if i == |head| + 2 {
        assert t[i + 1] == 'j';
        assert low[i + 1] != 'a';
      } else if i < |head| + 10 {
        assert t[i] == "subject(s)"[i - |head|];
        assert low[i] != 'b';
      } else {
        assert t[i] == tail[i - |head| - 10];
        assert low[i] != 'b';
      }
    }
  }

  /** Whether any recorded earlier-term subject of `student` was failed. */
  function HasFailedSubject(ps: seq<PreviousTermSubject>, student: UserId): (r: bool)
    ensures r <==> exists i :: 0 <= i < |ps| && ps[i].student == student && !ps[i].passed
  {
    if |ps| == 0 then false
    else (ps[0].student == student && !ps[0].passed) || HasFailedSubject(ps[1..], student)
  }

  /** The finance eligibility rule: a positive balance blocks first, then a
      failed earlier-term subject; otherwise the student is clear. */
  function CanFinanceApprove(db: Db, student: UserId): (r: HoldReason)
    ensures r == UnpaidBalance <==> Balance(db, student) > 0
    ensures r == AcademicIssue <==> Balance(db, student) <= 0 && HasFailedSubject(db.previousSubjects, student)
    ensures r == NoIssue <==> Balance(db, student) <= 0 && !HasFailedSubject(db.previousSubjects, student)
  {
    if Balance(db, student) > 0 then UnpaidBalance
    else if HasFailedSubject(db.previousSubjects, student) then AcademicIssue
    else NoIssue
  }

  /** Finance reviews an enlistment waiting for it. An eligible student is
      cleared when `approveIfOk` is set; any other outcome is a hold, on the
      balance exactly when the balance is positive. */
  function FinanceReviewStep(db: Db, user: User, eid: EnlistmentId, approveIfOk: bool): (r: Result<Db, Error>)
    requires eid < |db.enlistments|
    ensures r.Ok? <==> HasRole(user, {Finance}) && db.enlistments[eid].status == FinanceReview
    ensures !HasRole(user, {Finance}) ==> r == Err(PermissionDenied)
    ensures HasRole(user, {Finance}) && r.Err? ==> r.error == NotAwaitingFinanceReview
    ensures r.Ok? ==> OnlyEnlistmentChanged(db, r.value, eid)
    ensures r.Ok? ==>
      var e := db.enlistments[eid];
      var e' := r.value.enlistments[eid];
      var balance := Balance(db, e.student);
      var failed := HasFailedSubject(db.previousSubjects, e.student);
      && e'.financeCheckedBy == Some(user.id)
      && e'.(status := e.status, holdReason := e.holdReason, financeCheckedBy := e.financeCheckedBy) == e
      && e'.status in {FinanceApproved, FinanceHoldBalance, FinanceHoldAcademic}
      && (e'.status == FinanceApproved <==> approveIfOk && balance <= 0 && !failed)
      && (balance > 0 ==> e'.status == FinanceHoldBalance)
      && (balance <= 0 && failed ==> e'.status == FinanceHoldAcademic)
      && (balance <= 0 && !failed && !approveIfOk ==> e'.status == FinanceHoldAcademic && e'.holdReason == "")
      && (e'.status == FinanceApproved ==> e'.holdReason == "")
      && (e'.status != FinanceApproved ==> e'.holdReason == ReasonText(CanFinanceApprove(db, e.student)))
      && r.value.history == db.history + [LogEntry(user.id, Some(eid), if e'.status == FinanceApproved then LogFinanceReviewed else LogFinanceHeld)]
  {
    var e := db.enlistments[eid];
    if !HasRole(user, {Finance}) then Err(PermissionDenied)
    else if e.status != FinanceReview then Err(NotAwaitingFinanceReview)
    else
      var e' := Review(e, CanFinanceApprove(db, e.student), user, approveIfOk);
      Ok(Save(db, eid, e', user, if e'.status == FinanceApproved then LogFinanceReviewed else LogFinanceHeld))
  }

  /** The reviewed record: cleared with no hold reason when eligible and
      `approveIfOk` is set; otherwise held with the reason's text, on the
      balance when the reason mentions it and as academic otherwise. */
  function Review(e: Enlistment, reason: HoldReason, user: User, approveIfOk: bool): (e': Enlistment)
    ensures e'.financeCheckedBy == Some(user.id)
    ensures e'.(status := e.status, holdReason := e.holdReason, financeCheckedBy := e.financeCheckedBy) == e
    ensures e'.status in {FinanceApproved, FinanceHoldBalance, FinanceHoldAcademic}
    ensures e'.status == FinanceApproved <==> reason == NoIssue && approveIfOk
    ensures reason == UnpaidBalance ==> e'.status == FinanceHoldBalance
    ensures reason == AcademicIssue ==> e'.status == FinanceHoldAcademic
    ensures reason == NoIssue && !approveIfOk ==> e'.status == FinanceHoldAcademic && e'.holdReason == ""
    ensures e'.status == FinanceApproved ==> e'.holdReason == ""
    ensures e'.status != FinanceApproved ==> e'.holdReason == ReasonText(reason)
  {
    var checked := e.(financeCheckedBy := Some(user.id));
    if reason == NoIssue && approveIfOk then checked.(status := FinanceApproved, holdReason := "")
    else
      var hold := if MentionsBalance(reason) then FinanceHoldBalance else FinanceHoldAcademic;
      checked.(status := hold, holdReason := ReasonText(reason))
  }

  // -------------------------------------------------------- final approval

  /** The catalogue subjects whose ids are listed, in catalogue order. */
  function Select(catalogue: seq<SubjectId>, ids: seq<SubjectId>): (r: seq<SubjectId>)
    ensures forall x :: x in r <==> x in catalogue && x in ids
    ensures Distinct(catalogue) ==> Distinct(r)
  {
    if |catalogue| == 0 then []
    else (if catalogue[0] in ids then [catalogue[0]] else []) + Select(catalogue[1..], ids)
  }

  /** The subject rows that do not belong to enlistment `eid`. */
  function Without(rows: seq<EnlistmentSubject>, eid: EnlistmentId): (r: seq<EnlistmentSubject>)
    ensures forall row :: row in r <==> row in rows && row.enlistment != eid
    ensures Distinct(rows) ==> Distinct(r)
  {
    if |rows| == 0 then []
    else (if rows[0].enlistment != eid then [rows[0]] else []) + Without(rows[1..], eid)
  }

  function RowsFor(eid: EnlistmentId, subjects: seq<SubjectId>): (r: seq<EnlistmentSubject>)
    ensures forall row :: row in r <==> row.enlistment == eid && row.subject in subjects
    ensures Distinct(subjects) ==> Distinct(r)
  {
    if |subjects| == 0 then []
    else [EnlistmentSubject(eid, subjects[0])] + RowsFor(eid, subjects[1..])
  }

  /** Delete every row of `eid` and attach the selected catalogue subjects. */
  function ReplaceSubjects(rows: seq<EnlistmentSubject>, eid: EnlistmentId,
                           catalogue: seq<SubjectId>, ids: seq<SubjectId>): (r: seq<EnlistmentSubject>)
    ensures forall s :: EnlistmentSubject(eid, s) in r <==> s in catalogue && s in ids
    ensures forall row: EnlistmentSubject :: row.enlistment != eid ==> (row in r <==> row in rows)
    ensures Distinct(rows) && Distinct(catalogue) ==> Distinct(r)
  {
    var kept := Without(rows, eid);
    var added := RowsFor(eid, Select(catalogue, ids));
    assert forall row :: row in added ==> row !in kept;
    kept + added
  }

  /** Find-or-create the payment; an existing one only goes back to PENDING. */
  function ResetPayment(payments: map<EnlistmentId, Payment>, eid: EnlistmentId): (r: map<EnlistmentId, Payment>)
    ensures eid in r && r[eid].status == Pending
    ensures eid in payments ==> r[eid] == payments[eid].(status := Pending)
    ensures eid !in payments ==> r[eid].enlistmentAmount == 0 && r[eid].tuitionAmount == 0 && r[eid].amount == 0
    ensures forall j :: j != eid ==> (j in r <==> j in payments)
    ensures forall j :: j in payments && j != eid ==> r[j] == payments[j]
  {
    if eid in payments then payments[eid := payments[eid].(status := Pending)]
    else payments[eid := NewPayment]
  }

  /** An adviser gives final approval to a finance-cleared enlistment and sets
      its next-term subjects to exactly the listed catalogue subjects. */
  function FinalApprove(db: Db, user: User, eid: EnlistmentId, subjectIds: seq<SubjectId>): (r: Result<Db, Error>)
    requires eid < |db.enlistments|
    ensures r.Ok? <==> HasRole(user, {Adviser}) && db.enlistments[eid].status == FinanceApproved && |subjectIds| > 0
    ensures !HasRole(user, {Adviser}) ==> r == Err(PermissionDenied)
    ensures HasRole(user, {Adviser}) && db.enlistments[eid].status != FinanceApproved ==> r == Err(NotFinanceCleared)
    ensures HasRole(user, {Adviser}) && db.enlistments[eid].status == FinanceApproved && |subjectIds| == 0 ==>
      r == Err(NoSubjectsGiven)
    ensures r.Ok? ==>
      && |r.value.enlistments| == |db.enlistments|
      && (forall j :: 0 <= j < |db.enlistments| && j != eid ==> r.value.enlistments[j] == db.enlistments[j])
    ensures r.Ok? ==>
      var e := db.enlistments[eid];
      var e' := r.value.enlistments[eid];
      && e'.status == ApprovedForPayment
      && e'.adviserFinalApprovedBy == Some(user.id)
      && e'.holdReason == ""
      && e'.(status := e.status, holdReason := e.holdReason, adviserFinalApprovedBy := e.adviserFinalApprovedBy) == e
      && (forall s :: EnlistmentSubject(eid, s) in r.value.nextSubjects <==> s in db.catalogue && s in subjectIds)
      && (forall row: EnlistmentSubject :: row.enlistment != eid ==> (row in r.value.nextSubjects <==> row in db.nextSubjects))
      && (Distinct(db.nextSubjects) && Distinct(db.catalogue) ==> Distinct(r.value.nextSubjects))
      && eid in r.value.payments
      && r.value.payments[eid].status == Pending
      && (eid in db.payments ==> r.value.payments[eid].(status := db.payments[eid].status) == db.payments[eid])
      && (eid !in db.payments ==> r.value.payments[eid] == NewPayment)
      && (forall k :: k != eid ==> (k in r.value.payments <==> k in db.payments))
      && (forall k :: k in db.payments && k != eid ==> r.value.payments[k] == db.payments[k])
      && r.value.accounts == db.accounts
      && r.value.previousSubjects == db.previousSubjects
      && r.value.catalogue == db.catalogue
      && r.value.history == db.history + [LogEntry(user.id, Some(eid), LogFinalApproved)]
  {
    var e := db.enlistments[eid];
    if !HasRole(user, {Adviser}) then Err(PermissionDenied)
    else if e.status != FinanceApproved then Err(NotFinanceCleared)
    else if |subjectIds| == 0 then Err(NoSubjectsGiven)
    else
      var saved := Save(db, eid, e.(status := ApprovedForPayment, adviserFinalApprovedBy := Some(user.id), holdReason := ""),
                        user, LogFinalApproved);
      Ok(saved.(nextSubjects := ReplaceSubjects(db.nextSubjects, eid, db.catalogue, subjectIds),
                payments := ResetPayment(db.payments, eid)))
  }
}

=== FILE: fees.dfy ===
/** The fee half of the workflow: finance sets the two dues, a student
    claims a payment, and finance records payments into the enlistment-fee
    bucket or the tuition bucket, crediting any overpayment to the student's
    finance account and confirming enrollment once tuition is paid. */
module Fees {
  import opened Outcomes
  import opened Accounts
  import opened Models
  import opened Guards
  import opened Text

  /** The two fee buckets; tuition opens only once the enlistment fee is paid. */
  datatype FeeKind = EnlistmentFee | TuitionFee

  /** The payment of an enlistment, or the record find-or-create would make. */
  function PaymentOf(db: Db, eid: EnlistmentId): (p: Payment)
    ensures eid in db.payments ==> p == db.payments[eid]
    ensures eid !in db.payments ==>
      && p.enlistmentAmount == 0 && p.tuitionAmount == 0 && p.amount == 0 && p.status == Pending
      && p.enlistmentPaidAmount == 0 && p.tuitionPaidAmount == 0 && !p.enlistmentPaid
  {
    if eid in db.payments then db.payments[eid] else NewPayment
  }

  function Due(p: Payment, k: FeeKind): Cents
  {
    match k
    case EnlistmentFee => p.enlistmentAmount
    case TuitionFee => p.tuitionAmount
  }

  function Paid(p: Payment, k: FeeKind): Cents
  {
    match k
    case EnlistmentFee => p.enlistmentPaidAmount
    case TuitionFee => p.tuitionPaidAmount
  }

  function Other(k: FeeKind): FeeKind
  {
    match k
    case EnlistmentFee => TuitionFee
    case TuitionFee => EnlistmentFee
  }

  function Max(a: int, b: int): int { if a >= b then a else b }
  function Min(a: int, b: int): int { if a <= b then a else b }

  // ------------------------------------------------------- kind resolution

  /** The bucket a student's claim names: "ENLISTMENT" in any letter case,
      and tuition for anything else, including no kind at all. */
  function StudentKind(kind: string): (k: FeeKind)
    ensures k == EnlistmentFee <==> Upper(kind) == "ENLISTMENT"
  {
    if Upper(kind) == "ENLISTMENT" then EnlistmentFee else TuitionFee
  }

  /** The bucket finance records into: an explicit kind in any letter case
      wins; otherwise a reference mentioning "DOWNPAYMENT" in any letter case
      means the enlistment fee, and anything else means tuition. */
  function FinanceKind(kind: string, reference: string): (k: FeeKind)
    ensures Upper(kind) == "ENLISTMENT" ==> k == EnlistmentFee
    ensures Upper(kind) == "TUITION" ==> k == TuitionFee
    ensures Upper(kind) != "ENLISTMENT" && Upper(kind) != "TUITION" ==>
      (k == EnlistmentFee <==> OccursSomewhere(Upper(reference), "DOWNPAYMENT"))
  {
    ContainsIffOccurs(Upper(reference), "DOWNPAYMENT");
    var upper := Upper(kind);
    if upper == "ENLISTMENT" then EnlistmentFee
    else if upper == "TUITION" then TuitionFee
    else if Contains(Upper(reference), "DOWNPAYMENT") then EnlistmentFee
    else TuitionFee
  }

  /** Letter case never matters to either reading of the bucket. */
  lemma KindIgnoresCase(kind: string, reference: string)
    ensures StudentKind(Upper(kind)) == StudentKind(kind)
    ensures FinanceKind(Upper(kind), Upper(reference)) == FinanceKind(kind, reference)
  {
    UpperIdempotent(kind);
    UpperIdempotent(reference);
  }

  /** A student who names no bucket pays tuition; the bucket name may be
      written in any letter case. */
  lemma StudentKindDefaults()
    ensures StudentKind("") == TuitionFee
    ensures StudentKind("Enlistment") == EnlistmentFee
  {
    assert Upper("Enlistment") == "ENLISTMENT";
  }

  /** With no explicit bucket, finance reads a down-payment reference as the
      enlistment fee and anything else as tuition. */
  lemma FinanceKindDefaults()
    ensures FinanceKind("", "downpayment") == EnlistmentFee
    ensures FinanceKind("", "") == TuitionFee
  {
    assert Upper("downpayment") == "DOWNPAYMENT";
    assert OccursAt("DOWNPAYMENT", "DOWNPAYMENT", 0);
    assert !OccursSomewhere("", "DOWNPAYMENT");
  }

  // ----------------------------------------------------------- set amount

  /** Finance sets both dues of an enlistment, in any state. The legacy
      amount follows the tuition due; paid amounts, the payment's status and
      the enlistment itself are untouched. */
  function SetAmount(db: Db, user: User, eid: EnlistmentId, enlistmentAmount: Cents, tuitionAmount: Cents): (r: Result<Db, Error>)
    requires eid < |db.enlistments|
    ensures r.Ok? <==> HasRole(user, {Finance})
    ensures r.Err? ==> r.error == PermissionDenied
    ensures r.Ok? ==>
      var p := PaymentOf(db, eid);
      && r.value.enlistments == db.enlistments
      && eid in r.value.payments
      && r.value.payments[eid].enlistmentAmount == enlistmentAmount
      && r.value.payments[eid].tuitionAmount == tuitionAmount
      && r.value.payments[eid].amount == tuitionAmount
      && r.value.payments[eid].(enlistmentAmount := p.enlistmentAmount, tuitionAmount := p.tuitionAmount, amount := p.amount) == p
      && (forall k :: k != eid ==> (k in r.value.payments <==> k in db.payments))
      && (forall k :: k in db.payments && k != eid ==> r.value.payments[k] == db.payments[k])
      && r.value.nextSubjects == db.nextSubjects
      && r.value.accounts == db.accounts
      && r.value.previousSubjects == db.previousSubjects
      && r.value.catalogue == db.catalogue
      && r.value.history == db.history + [LogEntry(user.id, Some(eid), LogAmountSet)]
  {
    if !HasRole(user, {Finance}) then Err(PermissionDenied)
    else
      var p := PaymentOf(db, eid).(enlistmentAmount := enlistmentAmount, tuitionAmount := tuitionAmount, amount := tuitionAmount);
      Ok(db.(payments := db.payments[eid := p], history := db.history + [Entry(user, eid, LogAmountSet)]))
  }

  // ------------------------------------------------------- student claim

  /** A student claims to have paid `amount` towards one bucket; finance
      confirms it later. An anonymous request has no id, so it never owns
      the enlistment and is refused as not the caller's. */
  function MarkPaid(db: Db, student: User, eid: EnlistmentId, amount: Cents, reference: string, kind: string): (r: Result<Db, Error>)
    requires eid < |db.enlistments|
    ensures
      var e := db.enlistments[eid];
      var p := PaymentOf(db, eid);
      var k := StudentKind(kind);
      r.Ok? <==>
        && student.authenticated
        && student.id == e.student
        && e.status == ApprovedForPayment
        && 0 < amount <= Due(p, k)
        && (k == TuitionFee ==> p.enlistmentPaid)
    ensures !student.authenticated || student.id != db.enlistments[eid].student ==> r == Err(NotYourEnlistment)
    ensures student.authenticated && student.id == db.enlistments[eid].student && db.enlistments[eid].status != ApprovedForPayment ==>
      r == Err(NotApprovedForPayment)
    ensures
      var e := db.enlistments[eid];
      var p := PaymentOf(db, eid);
      var k := StudentKind(kind);
      student.authenticated && student.id == e.student && e.status == ApprovedForPayment ==>
        && (amount <= 0 ==> r == Err(NonPositiveAmount))
        && (amount > 0 && k == EnlistmentFee && p.enlistmentAmount <= 0 ==> r == Err(EnlistmentFeeNotSet))
        && (amount > 0 && k == TuitionFee && !p.enlistmentPaid ==> r == Err(EnlistmentFeeUnpaid))
        && (amount > 0 && k == TuitionFee && p.enlistmentPaid && p.tuitionAmount <= 0 ==> r == Err(TuitionFeeNotSet))
        && (0 < Due(p, k) < amount && (k == TuitionFee ==> p.enlistmentPaid) ==> r == Err(ExceedsDue))
    ensures r.Ok? ==>
      var p := PaymentOf(db, eid);
      && r.value.enlistments == db.enlistments
      && eid in r.value.payments
      && r.value.payments[eid].submittedAmount == amount
      && r.value.payments[eid].status == PaymentStatus.Submitted
      && r.value.payments[eid].reference == reference
      && r.value.payments[eid].amount == p.tuitionAmount
      && r.value.payments[eid].(submittedAmount := p.submittedAmount, status := p.status,
                                reference := p.reference, amount := p.amount) == p
      && (forall k :: k != eid ==> (k in r.value.payments <==> k in db.payments))
      && (forall k :: k in db.payments && k != eid ==> r.value.payments[k] == db.payments[k])
      && r.value.nextSubjects == db.nextSubjects
      && r.value.accounts == db.accounts
      && r.value.previousSubjects == db.previousSubjects
      && r.value.catalogue == db.catalogue
      && r.value.history == db.history + [LogEntry(student.id, Some(eid), LogPaymentRecorded)]
  {
    var e := db.enlistments[eid];
    if !student.authenticated || student.id != e.student then Err(NotYourEnlistment)
    else if e.status != ApprovedForPayment then Err(NotApprovedForPayment)
    else
      var p := PaymentOf(db, eid);
      var k := StudentKind(kind);
      if amount <= 0 then Err(NonPositiveAmount)
      else if k == EnlistmentFee && p.enlistmentAmount <= 0 then Err(EnlistmentFeeNotSet)
      else if k == TuitionFee && !p.enlistmentPaid then Err(EnlistmentFeeUnpaid)
      else if k == TuitionFee && p.tuitionAmount <= 0 then Err(TuitionFeeNotSet)
      else if amount > Due(p, k) then Err(ExceedsDue)
      else
        var p' := p.(submittedAmount := amount, status := PaymentStatus.Submitted, reference := reference, amount := p.tuitionAmount);
        Ok(db.(payments := db.payments[eid := p'], history := db.history + [Entry(student, eid, LogPaymentRecorded)]))
  }

  // ------------------------------------------------------ finance record

  /** What applying one payment to one bucket yields. */
  datatype Settlement = Settlement(paid: Cents, fullyPaid: bool, overpayment: Cents)

  /** Apply `amount` to a bucket that has `due` and has received `prior`: the
      paid figure is clamped to the due, and whatever exceeded the part still
      owed is overpayment. */
  function Settle(due: Cents, prior: Cents, amount: Cents): (s: Settlement)
    requires due > 0 && amount > 0
    ensures s.paid <= due
    ensures s.fullyPaid <==> s.paid == due
    ensures s.overpayment >= 0
    ensures prior <= due ==> s.overpayment == Max(0, prior + amount - due)
    ensures prior > due ==> s.overpayment == amount
  {
    var paid := Min(prior + amount, due);
    var remaining := Max(due - prior, 0);
    Settlement(paid, paid >= due, if amount > remaining then amount - remaining else 0)
  }

  /** The outcome finance sees: the new state, whether the bucket is now
      fully paid, the overpayment credited and the bucket used. */
  datatype Recorded = Recorded(db: Db, fullyPaid: bool, overpayment: Cents, kind: FeeKind)

  /** What recording `amount` into bucket `k` of enlistment `eid` must leave
      behind, stated against the state before the call: the payment, the
      finance account and the enlistment with its log. */
  ghost predicate Books(db: Db, user: User, eid: EnlistmentId, amount: Cents, reference: string, k: FeeKind, rec: Recorded)
    requires eid < |db.enlistments|
  {
    && rec.kind == k
    && BooksPayment(db, eid, amount, reference, k, rec)
    && BooksCredit(db, eid, amount, k, rec)
    && BooksEnrollment(db, user, eid, k, rec)
  }

  /** The chosen bucket is clamped to its due and the other bucket and both
      dues stay; the payment is stamped with the claim fields. */
  ghost predicate BooksPayment(db: Db, eid: EnlistmentId, amount: Cents, reference: string, k: FeeKind, rec: Recorded)
  {
    var p := PaymentOf(db, eid);
    var db' := rec.db;
    var prior := Paid(p, k);
    var due := Due(p, k);
    && eid in db'.payments
    && Paid(db'.payments[eid], k) == Min(prior + amount, due)
    && Paid(db'.payments[eid], Other(k)) == Paid(p, Other(k))
    && Due(db'.payments[eid], k) == due
    && Due(db'.payments[eid], Other(k)) == Due(p, Other(k))
    && (rec.fullyPaid <==> Paid(db'.payments[eid], k) >= due)
    && db'.payments[eid].status == (if rec.fullyPaid then Success else Pending)
    && db'.payments[eid].enlistmentPaid == (if k == EnlistmentFee then rec.fullyPaid else p.enlistmentPaid)
    && db'.payments[eid].amount == p.tuitionAmount
    && db'.payments[eid].submittedAmount == amount
    && db'.payments[eid].reference == reference
    && (forall j :: j != eid ==> (j in db'.payments <==> j in db.payments))
    && (forall j :: j in db.payments && j != eid ==> db'.payments[j] == db.payments[j])
  }

  /** The overpayment is what exceeded the part still owed, and it is
      credited to the owner's balance; no other account changes. */
  ghost predicate BooksCredit(db: Db, eid: EnlistmentId, amount: Cents, k: FeeKind, rec: Recorded)
    requires eid < |db.enlistments|
  {
    var student := db.enlistments[eid].student;
    var p := PaymentOf(db, eid);
    var db' := rec.db;
    var prior := Paid(p, k);
    var due := Due(p, k);
    && rec.overpayment >= 0
    && (prior <= due ==> rec.overpayment == Max(0, prior + amount - due))
    && (prior > due ==> rec.overpayment == amount)
    && Balance(db', student) == Balance(db, student) - rec.overpayment
    && (student in db'.accounts <==> student in db.accounts || rec.overpayment > 0)
    && (forall s :: s != student ==> (s in db'.accounts <==> s in db.accounts))
    && (forall s :: s in db.accounts && s != student ==> db'.accounts[s] == db.accounts[s])
  }

  /** Enrollment is confirmed exactly when tuition becomes fully paid, and
      the log gains the payment entry and then the enrollment entry. */
  ghost predicate BooksEnrollment(db: Db, user: User, eid: EnlistmentId, k: FeeKind, rec: Recorded)
    requires eid < |db.enlistments|
  {
    var e := db.enlistments[eid];
    var db' := rec.db;
    && |db'.enlistments| == |db.enlistments|
    && (forall j :: 0 <= j < |db.enlistments| && j != eid ==> db'.enlistments[j] == db.enlistments[j])
    && (db'.enlistments[eid].status == Enrolled <==> k == TuitionFee && rec.fullyPaid)
    && db'.enlistments[eid].(status := e.status) == e
    && (db'.enlistments[eid].status != Enrolled ==> db'.enlistments[eid] == e)
    && db'.history == db.history + [LogEntry(user.id, Some(eid), LogPaymentRecorded)]
                                 + (if k == TuitionFee && rec.fullyPaid
                                    then [LogEntry(user.id, Some(eid), LogEnrolled)] else [])
    && db'.nextSubjects == db.nextSubjects
    && db'.previousSubjects == db.previousSubjects
    && db'.catalogue == db.catalogue
  }

  /** The payment after settling bucket `k`: the bucket takes the settled
      figure, the enlistment-fee flag follows a full enlistment payment, and
      the claim fields are stamped; dues and the other bucket stay. */
  function Stamp(p: Payment, k: FeeKind, s: Settlement, amount: Cents, reference: string): (p': Payment)
    ensures Paid(p', k) == s.paid && Paid(p', Other(k)) == Paid(p, Other(k))
    ensures Due(p', k) == Due(p, k) && Due(p', Other(k)) == Due(p, Other(k))
    ensures p'.status == (if s.fullyPaid then Success else Pending)
    ensures p'.enlistmentPaid == (if k == EnlistmentFee then s.fullyPaid else p.enlistmentPaid)
    ensures p'.amount == p.tuitionAmount && p'.submittedAmount == amount && p'.reference == reference
  {
    var bucket := if k == EnlistmentFee then p.(enlistmentPaidAmount := s.paid, enlistmentPaid := s.fullyPaid)
                  else p.(tuitionPaidAmount := s.paid);
    bucket.(amount := p.tuitionAmount, submittedAmount := amount,
            status := if s.fullyPaid then Success else Pending, reference := reference)
  }

  /** Credit `overpayment` to a student's finance account, opening the
      account only when there is something to credit. */
  function Credit(accounts: map<UserId, FinanceAccount>, student: UserId, balance: Cents, overpayment: Cents): (a: map<UserId, FinanceAccount>)
    requires student in accounts ==> accounts[student].balance == balance
    requires overpayment >= 0
    ensures student in a <==> student in accounts || overpayment > 0
    ensures student in a ==> a[student].balance == balance - overpayment
    ensures forall s :: s != student ==> (s in a <==> s in accounts)
    ensures forall s :: s in accounts && s != student ==> a[s] == accounts[s]
  {
    if overpayment > 0 then accounts[student := FinanceAccount(balance - overpayment)] else accounts
  }

  /** The booking itself, once every check has passed: settle the bucket,
      stamp the payment, credit any overpayment and confirm enrollment when
      tuition is now fully paid. */
  function Book(db: Db, user: User, eid: EnlistmentId, amount: Cents, reference: string, k: FeeKind): (rec: Recorded)
    requires eid < |db.enlistments| && db.enlistments[eid].status == ApprovedForPayment
    requires amount > 0 && Due(PaymentOf(db, eid), k) > 0
    ensures Books(db, user, eid, amount, reference, k, rec)
  {
    var e := db.enlistments[eid];
    var p := PaymentOf(db, eid);
    var s := Settle(Due(p, k), Paid(p, k), amount);
    var enrolled := k == TuitionFee && s.fullyPaid;
    var e' := if enrolled then e.(status := Enrolled) else e;
    var logged := [Entry(user, eid, LogPaymentRecorded)] + (if enrolled then [Entry(user, eid, LogEnrolled)] else []);
    var db' := db.(enlistments := db.enlistments[eid := e'],
                   payments := db.payments[eid := Stamp(p, k, s, amount, reference)],
                   accounts := Credit(db.accounts, e.student, Balance(db, e.student), s.overpayment),
                   history := db.history + logged);
    Recorded(db', s.fullyPaid, s.overpayment, k)
  }

  /** Finance records a payment of `amount` for an enlistment approved for
      payment. */
  function RecordPayment(db: Db, user: User, eid: EnlistmentId, amount: Cents, reference: string, kind: string): (r: Result<Recorded, Error>)
    requires eid < |db.enlistments|
    ensures
      var e := db.enlistments[eid];
      var p := PaymentOf(db, eid);
      var k := FinanceKind(kind, reference);
      r.Ok? <==>
        && HasRole(user, {Finance})
        && e.status == ApprovedForPayment
        && amount > 0
        && Due(p, k) > 0
        && (k == TuitionFee ==> p.enlistmentPaid)
    ensures !HasRole(user, {Finance}) ==> r == Err(PermissionDenied)
    ensures HasRole(user, {Finance}) && db.enlistments[eid].status != ApprovedForPayment ==> r == Err(NotApprovedForPayment)
    ensures HasRole(user, {Finance}) && db.enlistments[eid].status == ApprovedForPayment && amount <= 0 ==>
      r == Err(NonPositiveAmount)
    ensures
      var p := PaymentOf(db, eid);
      var k := FinanceKind(kind, reference);
      HasRole(user, {Finance}) && db.enlistments[eid].status == ApprovedForPayment && amount > 0 ==>
        && (k == EnlistmentFee && p.enlistmentAmount <= 0 ==> r == Err(EnlistmentFeeNotSet))
        && (k == TuitionFee && !p.enlistmentPaid ==> r == Err(EnlistmentFeeUnpaid))
        && (k == TuitionFee && p.enlistmentPaid && p.tuitionAmount <= 0 ==> r == Err(TuitionFeeNotSet))
    ensures r.Ok? ==> Books(db, user, eid, amount, reference, FinanceKind(kind, reference), r.value)
  {
    var e := db.enlistments[eid];
    if !HasRole(user, {Finance}) then Err(PermissionDenied)
    else if e.status != ApprovedForPayment then Err(NotApprovedForPayment)
    else
      var p := PaymentOf(db, eid);
      if amount <= 0 then Err(NonPositiveAmount)
      else
        var k := FinanceKind(kind, reference);
        if k == EnlistmentFee && p.enlistmentAmount <= 0 then Err(EnlistmentFeeNotSet)
        else if k == TuitionFee && !p.enlistmentPaid then Err(EnlistmentFeeUnpaid)
        else if k == TuitionFee && p.tuitionAmount <= 0 then Err(TuitionFeeNotSet)
        else
          Ok(Book(db, user, eid, amount, reference, k))
  }

  // ------------------------------------------------------ bucket arithmetic

  /** While the paid figure is within the due, a payment is split exactly
      into what the bucket absorbs and what is credited as overpayment, and
      the paid figure never goes down. */
  lemma SettleConservesMoney(due: Cents, prior: Cents, amount: Cents)
    requires due > 0 && amount > 0 && prior <= due
    ensures var s := Settle(due, prior, amount);
      && prior <= s.paid <= due
      && (s.paid - prior) + s.overpayment == amount
      && (s.overpayment > 0 <==> prior + amount > due)
  {
  }

  /** If finance lowered the due below what was already paid, the clamp pulls
      the paid figure down to the new due and the whole payment is credited. */
  lemma SettleAboveDue(due: Cents, prior: Cents, amount: Cents)
    requires due > 0 && amount > 0 && prior > due
    ensures Settle(due, prior, amount).paid == due < prior
    ensures Settle(due, prior, amount).overpayment == amount
    ensures Settle(due, prior, amount).fullyPaid
  {
  }

  /** Recording a payment never lowers a bucket that was within its due, never
      pushes it past the due, and leaves the other bucket alone. */
  lemma RecordPaymentMonotone(db: Db, user: User, eid: EnlistmentId, amount: Cents, reference: string, kind: string)
    requires eid < |db.enlistments|
    requires RecordPayment(db, user, eid, amount, reference, kind).Ok?
    requires var k := FinanceKind(kind, reference);
             Paid(PaymentOf(db, eid), k) <= Due(PaymentOf(db, eid), k)
    ensures var rec := RecordPayment(db, user, eid, amount, reference, kind).value;
            var p, p' := PaymentOf(db, eid), rec.db.payments[eid];
            && Paid(p, rec.kind) <= Paid(p', rec.kind) <= Due(p', rec.kind)
            && (Paid(p, rec.kind) < Due(p, rec.kind) ==> Paid(p, rec.kind) < Paid(p', rec.kind))
            && Paid(p', Other(rec.kind)) == Paid(p, Other(rec.kind))
            && (Paid(p', rec.kind) - Paid(p, rec.kind)) + rec.overpayment == amount
  {
  }
}

=== FILE: guards.dfy ===
/** What every service shares: the role check, the failures a service can
    raise, and the small record updates the services are built from. */
module Guards {
  import opened Outcomes
  import opened Accounts
  import opened Models

  /** The reasons a service refuses. `PermissionDenied` and
      `NotYourEnlistment` are authorization failures; `NotFound` is the
      missing-record signal of the web layer; every other value is a
      validation failure raised before anything is written. */
  datatype Error =
    | PermissionDenied
    | NotYourEnlistment
    | NotFound
    | AlreadySubmittedForTerm
    | NotAwaitingPreapproval
    | NotReturnable
    | NotAwaitingFinanceReview
    | NotFinanceCleared
    | NoSubjectsGiven
    | NotApprovedForPayment
    | NonPositiveAmount
    | EnlistmentFeeNotSet
    | EnlistmentFeeUnpaid
    | TuitionFeeNotSet
    | ExceedsDue

  /** The role check every staff service starts with: an anonymous request
      or a role outside `roles` is refused. */
  predicate HasRole(user: User, roles: set<Role>): (ok: bool)
    ensures !user.authenticated ==> !ok
    ensures ok ==> user.role in roles
    ensures user.authenticated && user.role in roles ==> ok
  {
    user.authenticated && user.role in roles
  }

  /** The student's balance; a student without a finance account owes nothing. */
  function Balance(db: Db, student: UserId): (b: Cents)
    ensures student !in db.accounts ==> b == 0
    ensures student in db.accounts ==> b == db.accounts[student].balance
  {
    if student in db.accounts then db.accounts[student].balance else NewAccount.balance
  }

  /** `db'` differs from `db` at most in enlistment `eid` and the history. */
  predicate OnlyEnlistmentChanged(db: Db, db': Db, eid: EnlistmentId)
  {
    && |db'.enlistments| == |db.enlistments|
    && (forall j :: 0 <= j < |db.enlistments| && j != eid ==> db'.enlistments[j] == db.enlistments[j])
    && db'.nextSubjects == db.nextSubjects
    && db'.payments == db.payments
    && db'.accounts == db.accounts
    && db'.previousSubjects == db.previousSubjects
    && db'.catalogue == db.catalogue
  }

  /** The one history entry a step appends, naming its actor and enlistment. */
  function Entry(actor: User, eid: EnlistmentId, action: Action): LogEntry
  {
    LogEntry(actor.id, Some(eid), action)
  }

  /** Store `e` as enlistment `eid` and log `action` by `actor`. */
  function Save(db: Db, eid: EnlistmentId, e: Enlistment, actor: User, action: Action): (db': Db)
    requires eid < |db.enlistments|
    ensures OnlyEnlistmentChanged(db, db', eid)
    ensures db'.enlistments[eid] == e
    ensures db'.history == db.history + [Entry(actor, eid, action)]
  {
    db.(enlistments := db.enlistments[eid := e], history := db.history + [Entry(actor, eid, action)])
  }
}

=== FILE: menu.dfy ===
/** The student profile side menu: a table seeded with fourteen default
    entries the first time it is read, and shown as its active entries
    sorted by (order, label). */
module ProfileMenu {
  import opened Text

  /** One menu row. `caption` holds the source's `label` column; `label` is
      a reserved word in Dafny. */
  datatype MenuItem = MenuItem(caption: string, slug: string, url: string, order: nat, isActive: bool)

  /** The (slug, label, url) of each default entry, in menu order. */
  const DefaultSpecs: seq<(string, string, string)> := [
    ("personal", "Personal Details", "/enrollment/student/profile/"),
    ("address", "Address Details", "/enrollment/student/profile/address/"),
    ("course", "Course Details", "/enrollment/student/profile/course/"),
    ("photo", "Photo Signature", "/enrollment/student/profile/photo/"),
    ("enlisted", "Enlisted Subjects", "/enrollment/student/profile/enlisted/"),
    ("grade", "Grade", "/enrollment/student/profile/grade/"),
    ("schedule", "Class Schedule", "/enrollment/student/profile/schedule/"),
    ("attendance", "Attendance", "/enrollment/student/profile/attendance/"),
    ("overall", "Overall Result", "/enrollment/student/profile/overall/"),
    ("permit", "Exam Permit", "/enrollment/student/profile/permit/"),
    ("document", "Document", "/enrollment/student/profile/document/"),
    ("exam_schedule", "Exam Schedule", "/enrollment/student/profile/exam-schedule/"),
    ("deferment", "Apply Deferment", "/enrollment/student/profile/deferment/"),
    ("curriculum", "Curriculum Progressions", "/enrollment/student/profile/curriculum/")
  ]

  /** The seeded rows: numbered from 1 in list order, all active. */
  function Defaults(): (d: seq<MenuItem>)
    ensures |d| == |DefaultSpecs| == 14
    ensures forall i :: 0 <= i < |d| ==> d[i].order == i + 1 && d[i].isActive
    ensures forall i :: 0 <= i < |d| ==> (d[i].slug, d[i].caption, d[i].url) == DefaultSpecs[i]
  {
    seq(|DefaultSpecs|, i requires 0 <= i < |DefaultSpecs| =>
      MenuItem(DefaultSpecs[i].1, DefaultSpecs[i].0, DefaultSpecs[i].2, i + 1, true))
  }

  // ------------------------------------------------------------- ordering

  /** The menu order: by `order`, then by label (`caption`). */
  predicate ItemLe(a: MenuItem, b: MenuItem)
  {
    a.order < b.order || (a.order == b.order && StrLe(a.caption, b.caption))
  }

  lemma ItemLeTotal(a: MenuItem, b: MenuItem)
    ensures ItemLe(a, b) || ItemLe(b, a)
  {
    StrLeTotal(a.caption, b.caption);
  }

  lemma ItemLeTransitive(a: MenuItem, b: MenuItem, c: MenuItem)
    requires ItemLe(a, b) && ItemLe(b, c)
    ensures ItemLe(a, c)
  {
    if a.order == b.order == c.order {
      StrLeTransitive(a.caption, b.caption, c.caption);
    }
  }

  predicate Sorted(s: seq<MenuItem>)
  {
    forall i, j :: 0 <= i < j < |s| ==> ItemLe(s[i], s[j])
  }

  // ---------------------------------------------------------- the listing

  /** The active rows, in table order. */
  function Active(s: seq<MenuItem>): seq<MenuItem>
  {
    if |s| == 0 then []
    else (if s[0].isActive then [s[0]] else []) + Active(s[1..])
  }

  /** Filtering keeps every active row as often as it occurs, and no other. */
  lemma {:induction false} ActiveCounts(s: seq<MenuItem>)
    ensures forall x :: multiset(Active(s))[x] == if x.isActive then multiset(s)[x] else 0
    decreases |s|
  {
    if |s| > 0 {
      ActiveCounts(s[1..]);
      assert s == [s[0]] + s[1..];
    }
  }

  function Insert(x: MenuItem, s: seq<MenuItem>): (r: seq<MenuItem>)
    ensures multiset(r) == multiset(s) + multiset{x}
  {
    if |s| == 0 then [x]
    else if ItemLe(x, s[0]) then [x] + s
    else
      assert s == [s[0]] + s[1..];
      [s[0]] + Insert(x, s[1..])
  }

  /** A sorted list stays sorted with an element in front that precedes all of it. */
  lemma ConsSorted(y: MenuItem, t: seq<MenuItem>)
    requires Sorted(t)
    requires forall i :: 0 <= i < |t| ==> ItemLe(y, t[i])
    ensures Sorted([y] + t)
  {
    var r := [y] + t;
    forall i, j | 0 <= i < j < |r|
      ensures ItemLe(r[i], r[j])
    {
      if i > 0 {
        assert r[i] == t[i - 1] && r[j] == t[j - 1];
      }
    }
  }

  /** A lower bound of a list and of `x` bounds the list with `x` inserted. */
  lemma {:induction false} InsertKeepsLowerBound(y: MenuItem, x: MenuItem, t: seq<MenuItem>)
    requires ItemLe(y, x)
    requires forall i :: 0 <= i < |t| ==> ItemLe(y, t[i])
    ensures forall i :: 0 <= i < |Insert(x, t)| ==> ItemLe(y, Insert(x, t)[i])
    decreases |t|
  {
    if |t| > 0 && !ItemLe(x, t[0]) {
      InsertKeepsLowerBound(y, x, t[1..]);
      var r := Insert(x, t);
      assert r == [t[0]] + Insert(x, t[1..]);
      forall i | 0 <= i < |r|
        ensures ItemLe(y, r[i])
      {
        if i > 0 {
          assert r[i] == Insert(x, t[1..])[i - 1];
        }
      }
    }
  }

  lemma {:induction false} InsertKeepsSorted(x: MenuItem, s: seq<MenuItem>)
    requires Sorted(s)
    ensures Sorted(Insert(x, s))
    decreases |s|
  {
    if |s| == 0 {
    } else if ItemLe(x, s[0]) {
      forall i | 0 <= i < |s|
        ensures ItemLe(x, s[i])
      {
        if i > 0 {
          ItemLeTransitive(x, s[0], s[i]);
        }
      }
      ConsSorted(x, s);
    } else {
      var tail := s[1..];
      ItemLeTotal(x, s[0]);
      InsertKeepsSorted(x, tail);
      assert forall i :: 0 <= i < |tail| ==> ItemLe(s[0], tail[i]);
      InsertKeepsLowerBound(s[0], x, tail);
      ConsSorted(s[0], Insert(x, tail));
    }
  }

  /** Insertion sort into menu order. */
  function Sort(s: seq<MenuItem>): (r: seq<MenuItem>)
    ensures multiset(r) == multiset(s)
  {
    if |s| == 0 then []
    else
      assert s == [s[0]] + s[1..];
      Insert(s[0], Sort(s[1..]))
  }

  lemma {:induction false} SortSorts(s: seq<MenuItem>)
    ensures Sorted(Sort(s))
    decreases |s|
  {
    if |s| > 0 {
      SortSorts(s[1..]);
      InsertKeepsSorted(s[0], Sort(s[1..]));
    }
  }

  /** Read the menu: seed the defaults when the table is empty, then list
      the active rows in menu order. Returns the table after the call and
      the rows shown. */
  function GetMenu(table: seq<MenuItem>): (r: (seq<MenuItem>, seq<MenuItem>))
    ensures |table| > 0 ==> r.0 == table
    ensures |table| == 0 ==> r.0 == Defaults()
    ensures Sorted(r.1)
    ensures forall x :: multiset(r.1)[x] == if x.isActive then multiset(r.0)[x] else 0
  {
    var t := if |table| > 0 then table else Defaults();
    ActiveCounts(t);
    SortSorts(Active(t));
    (t, Sort(Active(t)))
  }

  // ----------------------------------------------------- seeding is once

  lemma {:induction false} SortKeepsAscending(s: seq<MenuItem>)
    requires forall i, j :: 0 <= i < j < |s| ==> s[i].order < s[j].order
    ensures Sort(s) == s
    decreases |s|
  {
    if |s| > 0 {
      var tail := s[1..];
      SortKeepsAscending(tail);
      if |tail| > 0 {
        assert ItemLe(s[0], tail[0]);
      }
      calc {
        Sort(s);
        Insert(s[0], Sort(tail));
        Insert(s[0], tail);
        [s[0]] + tail;
        s;
      }
    }
  }

  lemma {:induction false} ActiveKeepsAllActive(s: seq<MenuItem>)
    requires forall i :: 0 <= i < |s| ==> s[i].isActive
    ensures Active(s) == s
    decreases |s|
  {
    if |s| > 0 {
      var tail := s[1..];
      ActiveKeepsAllActive(tail);
      calc {
        Active(s);
        [s[0]] + Active(tail);
        [s[0]] + tail;
        s;
      }
    }
  }

  /** A table whose rows are all active and strictly ascending by order is
      listed as it stands. */
  lemma ListsAscendingAsIs(t: seq<MenuItem>)
    requires forall i :: 0 <= i < |t| ==> t[i].isActive
    requires forall i, j :: 0 <= i < j < |t| ==> t[i].order < t[j].order
    ensures Sort(Active(t)) == t
  {
    ActiveKeepsAllActive(t);
    SortKeepsAscending(t);
  }

  /** On an empty table the menu shows exactly the fourteen defaults, in order. */
  lemma FirstReadShowsDefaults()
    ensures GetMenu([]).1 == Defaults()
  {
    var d := Defaults();
    assert forall i, j :: 0 <= i < j < |d| ==> d[i].order < d[j].order;
    ListsAscendingAsIs(d);
    assert GetMenu([]).1 == Sort(Active(d));
  }

  /** Reading the menu a second time seeds nothing and shows the same rows. */
  lemma SecondReadSeedsNothing(table: seq<MenuItem>)
    ensures GetMenu(GetMenu(table).0) == GetMenu(table)
  {
  }

  /** The seeded slugs are pairwise different, as the table's unique slug
      column requires. */
  lemma DefaultSlugsDistinct()
    ensures forall i, j :: 0 <= i < j < |Defaults()| ==> Defaults()[i].slug != Defaults()[j].slug
  {
    var d := Defaults();
    forall i, j | 0 <= i < j < |d|
      ensures d[i].slug != d[j].slug
    {
      assert d[i].slug == DefaultSpecs[i].0 && d[j].slug == DefaultSpecs[j].0;
    }
  }
}

=== FILE: models.dfy ===
/** The persisted records of the enrollment workflow and the constraints the
    storage layer and the services keep on them together. Money is held in
    integer cents (the source stores decimals with two places). */
module Models {
  import opened Outcomes
  import opened Accounts

  type EnlistmentId = nat
  type SubjectId = nat
  type Cents = int

  /** The nine states of an enlistment. */
  datatype Status =
    | Submitted
    | Returned
    | FinanceReview
    | FinanceHoldBalance
    | FinanceHoldAcademic
    | FinanceApproved
    | ApprovedForPayment
    | Enrolled
    | Rejected

  datatype PaymentStatus = Pending | Submitted | Success | Failed

  /** What a history entry records; one value per kind of service step. */
  datatype Action =
    | LogSubmitted
    | LogReturned
    | LogPreapproved
    | LogFinanceReviewed
    | LogFinanceHeld
    | LogAmountSet
    | LogFinalApproved
    | LogPaymentRecorded
    | LogEnrolled

  /** One student's application for one term. */
  datatype Enlistment = Enlistment(
    student: UserId,
    category: Option<nat>,
    program: Option<nat>,
    schoolYear: string,
    semester: string,
    status: Status,
    notes: string,
    holdReason: string,
    adviserPreapprovedBy: Option<UserId>,
    financeCheckedBy: Option<UserId>,
    adviserFinalApprovedBy: Option<UserId>)

  /** A freshly created enlistment: waiting for the adviser, no reason, no reviewers. */
  function NewEnlistment(student: UserId, schoolYear: string, semester: string,
                         category: Option<nat>, program: Option<nat>, notes: string): (e: Enlistment)
    ensures e.status == Status.Submitted
    ensures e.student == student && e.schoolYear == schoolYear && e.semester == semester
    ensures e.category == category && e.program == program && e.notes == notes
    ensures e.holdReason == ""
    ensures e.adviserPreapprovedBy.None? && e.financeCheckedBy.None? && e.adviserFinalApprovedBy.None?
  {
    Enlistment(student, category, program, schoolYear, semester, Status.Submitted, notes, "", None, None, None)
  }

  /** Two enlistments compete for the same student and term. */
  predicate SameTerm(a: Enlistment, b: Enlistment)
  {
    a.student == b.student && a.schoolYear == b.schoolYear && a.semester == b.semester
  }

  /** One subject attached to an enlistment's next-term list. */
  datatype EnlistmentSubject = EnlistmentSubject(enlistment: EnlistmentId, subject: SubjectId)

  /** The fee record of one enlistment: two buckets (enlistment fee, tuition),
      each with a due amount and a running paid amount. `amount` is the
      legacy single figure, kept equal to the tuition due. */
  datatype Payment = Payment(
    enlistmentAmount: Cents,
    tuitionAmount: Cents,
    enlistmentPaidAmount: Cents,
    tuitionPaidAmount: Cents,
    enlistmentPaid: bool,
    amount: Cents,
    submittedAmount: Cents,
    status: PaymentStatus,
    reference: string)

  /** The record every find-or-create of a payment starts from. */
  const NewPayment: Payment := Payment(0, 0, 0, 0, false, 0, 0, Pending, "")

  /** A student's running balance: positive means owed, negative means credit. */
  datatype FinanceAccount = FinanceAccount(balance: Cents)

  const NewAccount: FinanceAccount := FinanceAccount(0)

  /** A subject the student took in an earlier term, and whether it was passed. */
  datatype PreviousTermSubject = PreviousTermSubject(student: UserId, subject: SubjectId, passed: bool)

  /** One audit entry; entries are only ever appended. */
  datatype LogEntry = LogEntry(actor: UserId, enlistment: Option<EnlistmentId>, action: Action)

  /** The tables the services read and write. An enlistment's id is its
      index in `enlistments` (records are never deleted); `payments` and
      `accounts` are keyed by enlistment and by student, which makes both
      one-to-one. `previousSubjects` and `catalogue` are read-only here. */
  datatype Db = Db(
    enlistments: seq<Enlistment>,
    nextSubjects: seq<EnlistmentSubject>,
    payments: map<EnlistmentId, Payment>,
    accounts: map<UserId, FinanceAccount>,
    previousSubjects: seq<PreviousTermSubject>,
    catalogue: seq<SubjectId>,
    history: seq<LogEntry>)

  predicate Distinct<T(==)>(s: seq<T>)
  {
    forall i, j :: 0 <= i < j < |s| ==> s[i] != s[j]
  }

  /** At most one non-rejected enlistment per student and term. */
  predicate OneActivePerTerm(es: seq<Enlistment>)
  {
    forall i, j :: 0 <= i < j < |es| && SameTerm(es[i], es[j]) ==>
      es[i].status == Rejected || es[j].status == Rejected
  }

  /** The legacy amount mirrors the tuition due and nothing was paid below zero. */
  predicate PaymentWellFormed(p: Payment)
  {
    p.amount == p.tuitionAmount && p.enlistmentPaidAmount >= 0 && p.tuitionPaidAmount >= 0
  }

  predicate AwaitsOrHadPayment(s: Status)
  {
    s == ApprovedForPayment || s == Enrolled
  }

  /** The constraints the storage layer and the services keep together. */
  predicate Valid(db: Db)
  {
    && OneActivePerTerm(db.enlistments)
    && Distinct(db.nextSubjects)
    && (forall k :: 0 <= k < |db.nextSubjects| ==> db.nextSubjects[k].enlistment < |db.enlistments|)
    && (forall id :: id in db.payments ==> id < |db.enlistments| && PaymentWellFormed(db.payments[id]))
    && (forall id :: 0 <= id < |db.enlistments| && AwaitsOrHadPayment(db.enlistments[id].status) ==> id in db.payments)
    && Distinct(db.catalogue)
  }

  /** A database with no enlistments yet, over a given catalogue and grade history. */
  function EmptyDb(previousSubjects: seq<PreviousTermSubject>, catalogue: seq<SubjectId>): (db: Db)
    requires Distinct(catalogue)
    ensures Valid(db)
    ensures |db.enlistments| == 0 && |db.history| == 0
  {
    Db([], [], map[], map[], previousSubjects, catalogue, [])
  }

  /** The defaults a new payment and a new finance account start from. */
  lemma NewRecordDefaults()
    ensures NewPayment.status == Pending && NewPayment.amount == 0 && NewPayment.submittedAmount == 0
    ensures PaymentWellFormed(NewPayment)
    ensures !NewPayment.enlistmentPaid
    ensures NewAccount.balance == 0
  {
  }
}

=== FILE: outcomes.dfy ===
/** Failure-carrying wrappers shared by every module of the model.
    A service that raises in the source returns `Err` here; because the
    model is purely functional, the caller simply keeps its old state,
    which is how the source's atomic transactions roll back. */
module Outcomes {

  datatype Option<+T> = None | Some(value: T)

  datatype Result<+T, +E> = Ok(value: T) | Err(error: E)
}

=== FILE: text.dfy ===
/** String helpers the services rely on: ASCII upper- and lower-casing,
    substring search, and a code-point order on strings that stands in for
    the database's ordering of menu labels. */
module Text {

  /** Upper-case one character; only the ASCII letters a..z have a mapping here. */
  function UpperChar(c: char): char
  {
    if 'a' <= c <= 'z' then (c as int - 32) as char else c
  }

  predicate IsLowerAscii(c: char)
  {
    'a' <= c <= 'z'
  }

  function Upper(s: string): (r: string)
    ensures |r| == |s|
    ensures forall i :: 0 <= i < |r| ==> !IsLowerAscii(r[i])
    ensures forall i :: 0 <= i < |s| && !IsLowerAscii(s[i]) ==> r[i] == s[i]
    ensures forall i :: 0 <= i < |s| && IsLowerAscii(s[i]) ==> r[i] as int == s[i] as int - 32
  {
    seq(|s|, i requires 0 <= i < |s| => UpperChar(s[i]))
  }

  /** Lower-case one character; only the ASCII letters A..Z have a mapping here. */
  function LowerChar(c: char): char
  {
    if 'A' <= c <= 'Z' then (c as int + 32) as char else c
  }

  predicate IsUpperAscii(c: char)
  {
    'A' <= c <= 'Z'
  }

  function Lower(s: string): (r: string)
    ensures |r| == |s|
    ensures forall i :: 0 <= i < |r| ==> !IsUpperAscii(r[i])
    ensures forall i :: 0 <= i < |s| && !IsUpperAscii(s[i]) ==> r[i] == s[i]
    ensures forall i :: 0 <= i < |s| && IsUpperAscii(s[i]) ==> r[i] as int == s[i] as int + 32
  {
    seq(|s|, i requires 0 <= i < |s| => LowerChar(s[i]))
  }

  /** Upper-casing twice is upper-casing once. */
  lemma UpperIdempotent(s: string)
    ensures Upper(Upper(s)) == Upper(s)
  {
  }

  predicate StartsWith(s: string, p: string)
  {
    |p| <= |s| && s[..|p|] == p
  }

  /** `p in s` for strings: some suffix of `s` starts with `p`. */
  predicate Contains(s: string, p: string)
    decreases |s|
  {
    StartsWith(s, p) || (|s| > 0 && Contains(s[1..], p))
  }

  /** `p` occurs in `s` starting at index `i`. */
  predicate OccursAt(s: string, p: string, i: int)
  {
    0 <= i && i + |p| <= |s| && s[i..i + |p|] == p
  }

  /** `c` does not occur in `s`. */
  predicate Lacks(s: string, c: char)
  {
    forall i :: 0 <= i < |s| ==> s[i] != c
  }

  /** The position-based reading of substring containment. */
  ghost predicate OccursSomewhere(s: string, p: string)
  {
    exists i :: OccursAt(s, p, i)
  }

  lemma {:induction false} ContainsIffOccurs(s: string, p: string)
    ensures Contains(s, p) <==> OccursSomewhere(s, p)
    decreases |s|
  {
    if StartsWith(s, p) {
      assert OccursAt(s, p, 0);
    } else if |s| > 0 {
      ContainsIffOccurs(s[1..], p);
      if Contains(s[1..], p) {
        var i :| OccursAt(s[1..], p, i);
        assert s[1..][i..i + |p|] == s[i + 1..i + 1 + |p|];
        assert OccursAt(s, p, i + 1);
      }
      if OccursSomewhere(s, p) {
        var i :| OccursAt(s, p, i);
        if i > 0 {
          assert s[1..][i - 1..i - 1 + |p|] == s[i..i + |p|];
          assert OccursAt(s[1..], p, i - 1);
        }
      }
    }
  }

  lemma ContainsAt(s: string, p: string, i: int)
    requires OccursAt(s, p, i)
    ensures Contains(s, p)
  {
    ContainsIffOccurs(s, p);
  }

  lemma ContainsNowhere(s: string, p: string)
    requires forall i :: !OccursAt(s, p, i)
    ensures !Contains(s, p)
  {
    ContainsIffOccurs(s, p);
  }

  /** Code-point lexicographic order, standing in for the database's ordering of labels. */
  predicate StrLe(a: string, b: string)
    decreases |a|
  {
    |a| == 0 || (|b| > 0 && (a[0] < b[0] || (a[0] == b[0] && StrLe(a[1..], b[1..]))))
  }

  lemma {:induction false} StrLeTotal(a: string, b: string)
    ensures StrLe(a, b) || StrLe(b, a)
    decreases |a|
  {
    if |a| > 0 && |b| > 0 && a[0] == b[0] {
      StrLeTotal(a[1..], b[1..]);
    }
  }

  lemma {:induction false} StrLeTransitive(a: string, b: string, c: string)
    requires StrLe(a, b) && StrLe(b, c)
    ensures StrLe(a, c)
    decreases |a|
  {
    if |a| > 0 && a[0] == b[0] && b[0] == c[0] {
      StrLeTransitive(a[1..], b[1..], c[1..]);
    }
  }
}

=== FILE: window.dfy ===
/** The site-wide enrollment window: a table meant to hold a single row,
    read through a find-or-create accessor. */
module EnrollmentWindows {

  datatype Window = Window(isOpen: bool, message: string)

  /** The row created when the table is empty: open, with no message. */
  const DefaultWindow: Window := Window(true, "")

  /** Return the first row (rows are kept in creation order); create the
      default row only when there is none. */
  function GetSolo(table: seq<Window>): (r: (seq<Window>, Window))
    ensures |table| > 0 ==> r.0 == table && r.1 == table[0]
    ensures |table| == 0 ==> r.0 == [DefaultWindow] && r.1 == DefaultWindow
    ensures |r.0| > 0 && r.1 == r.0[0]
  {
    if |table| > 0 then (table, table[0]) else ([DefaultWindow], DefaultWindow)
  }

  /** Asking twice creates nothing the second time and yields the same row. */
  lemma GetSoloIdempotent(table: seq<Window>)
    ensures GetSolo(GetSolo(table).0) == GetSolo(table)
  {
  }

  /** The accessor never adds more than the one default row. */
  lemma GetSoloAddsAtMostOne(table: seq<Window>)
    ensures |GetSolo(table).0| == if |table| == 0 then 1 else |table|
    ensures table <= GetSolo(table).0
  {
  }
}

=== FILE: workflow.dfy ===
/** The enlistment workflow as a whole: every service as one step over the
    database, the transition table the services are meant to follow, and the
    facts that hold across all of them. */
module Workflow {
  import opened Outcomes
  import opened Accounts
  import opened Models
  import opened Guards
  import opened Approvals
  import opened Fees
  import opened Text

  /** The transition table of the enlistment lifecycle, written independently
      of the services: from which state an enlistment may move to which. */
  predicate Step(from: Status, to: Status)
  {
    match from
    case Submitted => to == FinanceReview || to == Returned
    case Returned => to == FinanceReview
    case FinanceReview => to == FinanceApproved || to == FinanceHoldBalance || to == FinanceHoldAcademic
    case FinanceApproved => to == ApprovedForPayment || to == Returned
    case ApprovedForPayment => to == Enrolled
    case FinanceHoldBalance => false
    case FinanceHoldAcademic => false
    case Enrolled => false
    case Rejected => false
  }

  /** One call into the service layer. */
  datatype Op =
    | SubmitOp(student: User, schoolYear: string, semester: string, category: Option<nat>, program: Option<nat>, notes: string)
    | PreapproveOp(user: User, eid: EnlistmentId)
    | ReturnOp(user: User, eid: EnlistmentId, reason: string)
    | FinanceReviewOp(user: User, eid: EnlistmentId, approveIfOk: bool)
    | FinalApproveOp(user: User, eid: EnlistmentId, subjectIds: seq<SubjectId>)
    | SetAmountOp(user: User, eid: EnlistmentId, enlistmentAmount: Cents, tuitionAmount: Cents)
    | MarkPaidOp(student: User, eid: EnlistmentId, amount: Cents, reference: string, kind: string)
    | RecordPaymentOp(user: User, eid: EnlistmentId, amount: Cents, reference: string, kind: string)
  {
    /** The caller of the step. */
    function Actor(): User
    {
      match this
      case SubmitOp(student, _, _, _, _, _) => student
      case MarkPaidOp(student, _, _, _, _) => student
      case PreapproveOp(user, _) => user
      case ReturnOp(user, _, _) => user
      case FinanceReviewOp(user, _, _) => user
      case FinalApproveOp(user, _, _) => user
      case SetAmountOp(user, _, _, _) => user
      case RecordPaymentOp(user, _, _, _, _) => user
    }

    /** The staff role the step demands; submitting and claiming a payment
        check ownership instead of a role. */
    function RequiredRole(): Option<Role>
    {
      match this
      case SubmitOp(_, _, _, _, _, _) => None
      case MarkPaidOp(_, _, _, _, _) => None
      case PreapproveOp(_, _) => Some(Adviser)
      case ReturnOp(_, _, _) => Some(Adviser)
      case FinalApproveOp(_, _, _) => Some(Adviser)
      case FinanceReviewOp(_, _, _) => Some(Finance)
      case SetAmountOp(_, _, _, _) => Some(Finance)
      case RecordPaymentOp(_, _, _, _, _) => Some(Finance)
    }

    /** The enlistment the step works on; a submission creates the next id. */
    function Target(db: Db): EnlistmentId
    {
      if SubmitOp? then |db.enlistments| else eid
    }
  }

  /** Run one service call; a call naming a missing enlistment is refused. */
  function Apply(db: Db, op: Op): Result<Db, Error>
  {
    if !op.SubmitOp? && op.eid >= |db.enlistments| then Err(NotFound)
    else
      match op
      case SubmitOp(student, year, sem, category, program, notes) => Submit(db, student, year, sem, category, program, notes)
      case PreapproveOp(user, eid) => Preapprove(db, user, eid)
      case ReturnOp(user, eid, reason) => ReturnForRevision(db, user, eid, reason)
      case FinanceReviewOp(user, eid, approveIfOk) => FinanceReviewStep(db, user, eid, approveIfOk)
      case FinalApproveOp(user, eid, ids) => FinalApprove(db, user, eid, ids)
      case SetAmountOp(user, eid, ea, ta) => SetAmount(db, user, eid, ea, ta)
      case MarkPaidOp(student, eid, amount, reference, kind) => MarkPaid(db, student, eid, amount, reference, kind)
      case RecordPaymentOp(user, eid, amount, reference, kind) =>
        match RecordPayment(db, user, eid, amount, reference, kind)
        case Ok(rec) => Ok(rec.db)
        case Err(e) => Err(e)
  }

  // ------------------------------------------------------ the status table

  /** Going from `db` to `db'`, enlistments are only added, and only the one
      at `target` may change status, along a row of the transition table. */
  predicate FollowsTable(db: Db, db': Db, target: EnlistmentId)
  {
    && |db'.enlistments| >= |db.enlistments|
    && forall i :: 0 <= i < |db.enlistments| ==>
         db'.enlistments[i].status == db.enlistments[i].status
         || (i == target && Step(db.enlistments[i].status, db'.enlistments[i].status))
  }

  lemma SubmitFollowsTable(db: Db, student: User, year: string, sem: string,
                           category: Option<nat>, program: Option<nat>, notes: string)
    requires Submit(db, student, year, sem, category, program, notes).Ok?
    ensures FollowsTable(db, Submit(db, student, year, sem, category, program, notes).value, |db.enlistments|)
  {
    var db' := Submit(db, student, year, sem, category, program, notes).value;
    forall i | 0 <= i < |db.enlistments|
      ensures db'.enlistments[i] == db.enlistments[i]
    {
      assert db'.enlistments[i] == db'.enlistments[..|db.enlistments|][i];
    }
  }

  lemma RewriteFollowsTable(db: Db, db': Db, eid: EnlistmentId)
    requires eid < |db.enlistments| && |db'.enlistments| == |db.enlistments|
    requires forall j :: 0 <= j < |db.enlistments| && j != eid ==> db'.enlistments[j] == db.enlistments[j]
    requires db'.enlistments[eid].status == db.enlistments[eid].status
             || Step(db.enlistments[eid].status, db'.enlistments[eid].status)
    ensures FollowsTable(db, db', eid)
  {
  }

  lemma PreapproveFollowsTable(db: Db, user: User, eid: EnlistmentId)
    requires eid < |db.enlistments| && Preapprove(db, user, eid).Ok?
    ensures FollowsTable(db, Preapprove(db, user, eid).value, eid)
  {
    RewriteFollowsTable(db, Preapprove(db, user, eid).value, eid);
  }

  lemma ReturnFollowsTable(db: Db, user: User, eid: EnlistmentId, reason: string)
    requires eid < |db.enlistments| && ReturnForRevision(db, user, eid, reason).Ok?
    ensures FollowsTable(db, ReturnForRevision(db, user, eid, reason).value, eid)
  {
    RewriteFollowsTable(db, ReturnForRevision(db, user, eid, reason).value, eid);
  }

  lemma FinanceReviewFollowsTable(db: Db, user: User, eid: EnlistmentId, approveIfOk: bool)
    requires eid < |db.enlistments| && FinanceReviewStep(db, user, eid, approveIfOk).Ok?
    ensures FollowsTable(db, FinanceReviewStep(db, user, eid, approveIfOk).value, eid)
  {
    var db' := FinanceReviewStep(db, user, eid, approveIfOk).value;
    assert Step(FinanceReview, db'.enlistments[eid].status);
    RewriteFollowsTable(db, db', eid);
  }

  lemma FinalApproveFollowsTable(db: Db, user: User, eid: EnlistmentId, ids: seq<SubjectId>)
    requires eid < |db.enlistments| && FinalApprove(db, user, eid, ids).Ok?
    ensures FollowsTable(db, FinalApprove(db, user, eid, ids).value, eid)
  {
    var db' := FinalApprove(db, user, eid, ids).value;
    assert db'.enlistments[eid].status == ApprovedForPayment;
    RewriteFollowsTable(db, db', eid);
  }

  lemma SetAmountFollowsTable(db: Db, user: User, eid: EnlistmentId, ea: Cents, ta: Cents)
    requires eid < |db.enlistments| && SetAmount(db, user, eid, ea, ta).Ok?
    ensures FollowsTable(db, SetAmount(db, user, eid, ea, ta).value, eid)
  {
    RewriteFollowsTable(db, SetAmount(db, user, eid, ea, ta).value, eid);
  }

  lemma MarkPaidFollowsTable(db: Db, student: User, eid: EnlistmentId, amount: Cents, reference: string, kind: string)
    requires eid < |db.enlistments| && MarkPaid(db, student, eid, amount, reference, kind).Ok?
    ensures FollowsTable(db, MarkPaid(db, student, eid, amount, reference, kind).value, eid)
  {
    RewriteFollowsTable(db, MarkPaid(db, student, eid, amount, reference, kind).value, eid);
  }

  lemma RecordPaymentFollowsTable(db: Db, user: User, eid: EnlistmentId, amount: Cents, reference: string, kind: string)
    requires eid < |db.enlistments| && RecordPayment(db, user, eid, amount, reference, kind).Ok?
    ensures FollowsTable(db, RecordPayment(db, user, eid, amount, reference, kind).value.db, eid)
  {
    RewriteFollowsTable(db, RecordPayment(db, user, eid, amount, reference, kind).value.db, eid);
  }

  /** Every status change a step makes is a row of the transition table,
      and nobody else's status moves. */
  lemma {:induction false} ApplyFollowsTable(db: Db, op: Op)
    requires Apply(db, op).Ok?
    ensures FollowsTable(db, Apply(db, op).value, op.Target(db))
  {
    match op
    case SubmitOp(student, year, sem, category, program, notes) =>
      SubmitFollowsTable(db, student, year, sem, category, program, notes);
    case PreapproveOp(user, eid) =>
      PreapproveFollowsTable(db, user, eid);
    case ReturnOp(user, eid, reason) =>
      ReturnFollowsTable(db, user, eid, reason);
    case FinanceReviewOp(user, eid, approveIfOk) =>
      FinanceReviewFollowsTable(db, user, eid, approveIfOk);
    case FinalApproveOp(user, eid, ids) =>
      FinalApproveFollowsTable(db, user, eid, ids);
    case SetAmountOp(user, eid, ea, ta) =>
      SetAmountFollowsTable(db, user, eid, ea, ta);
    case MarkPaidOp(student, eid, amount, reference, kind) =>
      MarkPaidFollowsTable(db, student, eid, amount, reference, kind);
    case RecordPaymentOp(user, eid, amount, reference, kind) =>
      RecordPaymentFollowsTable(db, user, eid, amount, reference, kind);
  }

  /** A submission appends exactly one enlistment, and it starts SUBMITTED;
      every other step keeps the number of enlistments. */
  lemma ApplyCreatesOnlySubmitted(db: Db, op: Op)
    requires Apply(db, op).Ok?
    ensures op.SubmitOp? ==> |Apply(db, op).value.enlistments| == |db.enlistments| + 1
                             && Apply(db, op).value.enlistments[|db.enlistments|].status == Status.Submitted
    ensures !op.SubmitOp? ==> |Apply(db, op).value.enlistments| == |db.enlistments|
  {
  }

  /** The holds, ENROLLED and REJECTED have no way out: no step changes them. */
  lemma StuckStatesStay(db: Db, op: Op, i: EnlistmentId)
    requires Apply(db, op).Ok?
    requires i < |db.enlistments|
    requires db.enlistments[i].status in {FinanceHoldBalance, FinanceHoldAcademic, Enrolled, Rejected}
    ensures i < |Apply(db, op).value.enlistments|
    ensures Apply(db, op).value.enlistments[i].status == db.enlistments[i].status
  {
    ApplyFollowsTable(db, op);
  }

  /** No step ever rejects an enlistment, and none revives a rejected one. */
  lemma RejectionIsUntouched(db: Db, op: Op, i: EnlistmentId)
    requires Apply(db, op).Ok?
    requires i < |db.enlistments|
    ensures i < |Apply(db, op).value.enlistments|
    ensures Apply(db, op).value.enlistments[i].status == Rejected <==> db.enlistments[i].status == Rejected
  {
    ApplyFollowsTable(db, op);
  }

  // ---------------------------------------------------------- role gating

  /** A staff step called by an anonymous user or one of the wrong role is
      refused before anything else is looked at. */
  lemma RoleGating(db: Db, op: Op)
    requires !op.SubmitOp? && op.eid < |db.enlistments|
    requires op.RequiredRole().Some?
    requires !HasRole(op.Actor(), {op.RequiredRole().value})
    ensures Apply(db, op) == Err(PermissionDenied)
  {
  }

  /** A student can only claim a payment on an enlistment of their own, and
      an anonymous request owns nothing. */
  lemma OnlyOwnerClaims(db: Db, op: Op)
    requires op.MarkPaidOp? && op.eid < |db.enlistments|
    requires !op.student.authenticated || op.student.id != db.enlistments[op.eid].student
    ensures Apply(db, op) == Err(NotYourEnlistment)
  {
  }

  // ------------------------------------------------------------- history

  /** `h'` extends `h` by one entry, or by two when `mayEnroll` holds and the
      second confirms enrollment; every new entry names `actor` and `target`. */
  predicate AppendsLog(h: seq<LogEntry>, h': seq<LogEntry>, actor: UserId, target: EnlistmentId, mayEnroll: bool)
  {
    && |h| < |h'| <= |h| + 2
    && h'[..|h|] == h
    && (forall k :: |h| <= k < |h'| ==> h'[k].actor == actor && h'[k].enlistment == Some(target))
    && (|h'| == |h| + 2 ==> mayEnroll && h'[|h| + 1].action == LogEnrolled)
  }

  lemma OneEntryAppends(h: seq<LogEntry>, actor: UserId, target: EnlistmentId, action: Action, mayEnroll: bool)
    ensures AppendsLog(h, h + [LogEntry(actor, Some(target), action)], actor, target, mayEnroll)
  {
    assert (h + [LogEntry(actor, Some(target), action)])[..|h|] == h;
  }

  lemma PaymentEntriesAppend(h: seq<LogEntry>, actor: UserId, target: EnlistmentId, enrolled: bool)
    ensures AppendsLog(h, h + [LogEntry(actor, Some(target), LogPaymentRecorded)]
                          + (if enrolled then [LogEntry(actor, Some(target), LogEnrolled)] else []),
                       actor, target, true)
  {
    var h' := h + [LogEntry(actor, Some(target), LogPaymentRecorded)]
                + (if enrolled then [LogEntry(actor, Some(target), LogEnrolled)] else []);
    assert h'[..|h|] == h;
  }

  /** Every successful step appends to the history and never rewrites it:
      one entry, or two when a recorded payment confirms enrollment, each
      naming the caller and the enlistment worked on. */
  lemma {:induction false} ApplyLogs(db: Db, op: Op)
    requires Apply(db, op).Ok?
    ensures AppendsLog(db.history, Apply(db, op).value.history, op.Actor().id, op.Target(db), op.RecordPaymentOp?)
  {
    var h, mayEnroll := db.history, op.RecordPaymentOp?;
    match op
    case SubmitOp(student, year, sem, category, program, notes) =>
      OneEntryAppends(h, student.id, |db.enlistments|, LogSubmitted, mayEnroll);
    case PreapproveOp(user, eid) =>
      OneEntryAppends(h, user.id, eid, LogPreapproved, mayEnroll);
    case ReturnOp(user, eid, reason) =>
      OneEntryAppends(h, user.id, eid, LogReturned, mayEnroll);
    case FinanceReviewOp(user, eid, approveIfOk) =>
      var approved := FinanceReviewStep(db, user, eid, approveIfOk).value.enlistments[eid].status == FinanceApproved;
      OneEntryAppends(h, user.id, eid, if approved then LogFinanceReviewed else LogFinanceHeld, mayEnroll);
    case FinalApproveOp(user, eid, ids) =>
      OneEntryAppends(h, user.id, eid, LogFinalApproved, mayEnroll);
    case SetAmountOp(user, eid, ea, ta) =>
      OneEntryAppends(h, user.id, eid, LogAmountSet, mayEnroll);
    case MarkPaidOp(student, eid, amount, reference, kind) =>
      OneEntryAppends(h, student.id, eid, LogPaymentRecorded, mayEnroll);
    case RecordPaymentOp(user, eid, amount, reference, kind) =>
      var rec := RecordPayment(db, user, eid, amount, reference, kind).value;
      PaymentEntriesAppend(h, user.id, eid, rec.kind == TuitionFee && rec.fullyPaid);
  }

  // ----------------------------------------------------------- invariants

  lemma {:induction false} SubmitKeepsValid(db: Db, student: User, year: string, sem: string,
                                            category: Option<nat>, program: Option<nat>, notes: string)
    requires Valid(db)
    requires Submit(db, student, year, sem, category, program, notes).Ok?
    ensures Valid(Submit(db, student, year, sem, category, program, notes).value)
  {
    var db' := Submit(db, student, year, sem, category, program, notes).value;
    var n := |db.enlistments|;
    forall i, j | 0 <= i < j < |db'.enlistments| && SameTerm(db'.enlistments[i], db'.enlistments[j])
      ensures db'.enlistments[i].status == Rejected || db'.enlistments[j].status == Rejected
    {
      assert db'.enlistments[i] == db'.enlistments[..n][i];
      if j < n {
        assert db'.enlistments[j] == db'.enlistments[..n][j];
      } else {
        assert !ActiveFor(db.enlistments[i], student.id, year, sem);
      }
    }
    forall id | 0 <= id < |db'.enlistments| && AwaitsOrHadPayment(db'.enlistments[id].status)
      ensures id in db'.payments
    {
      assert db'.enlistments[id] == db'.enlistments[..n][id];
    }
  }

  /** A step that rewrites one enlistment keeps the one-active-per-term rule
      when it keeps the owner, the term and whether the record is rejected. */
  lemma {:induction false} RewriteKeepsOneActive(es: seq<Enlistment>, es': seq<Enlistment>, eid: EnlistmentId)
    requires OneActivePerTerm(es)
    requires |es'| == |es| && eid < |es|
    requires forall j :: 0 <= j < |es| && j != eid ==> es'[j] == es[j]
    requires SameTerm(es'[eid], es[eid]) && SameTerm(es[eid], es'[eid])
    requires es'[eid].status == Rejected <==> es[eid].status == Rejected
    ensures OneActivePerTerm(es')
  {
    forall i, j | 0 <= i < j < |es'| && SameTerm(es'[i], es'[j])
      ensures es'[i].status == Rejected || es'[j].status == Rejected
    {
      assert SameTerm(es[i], es[j]);
    }
  }

  /** A step that rewrites only enlistment `eid` keeps the constraints when
      it keeps that record's owner, term and rejected-ness, keeps every
      payment, and leaves a payable or enrolled enlistment with a payment. */
  lemma {:induction false} RewriteKeepsValid(db: Db, db': Db, eid: EnlistmentId)
    requires Valid(db)
    requires eid < |db.enlistments| && |db'.enlistments| == |db.enlistments|
    requires forall j :: 0 <= j < |db.enlistments| && j != eid ==> db'.enlistments[j] == db.enlistments[j]
    requires SameTerm(db'.enlistments[eid], db.enlistments[eid]) && SameTerm(db.enlistments[eid], db'.enlistments[eid])
    requires db'.enlistments[eid].status == Rejected <==> db.enlistments[eid].status == Rejected
    requires Distinct(db'.nextSubjects)
    requires forall k :: 0 <= k < |db'.nextSubjects| ==> db'.nextSubjects[k].enlistment < |db'.enlistments|
    requires forall id :: id in db'.payments ==> id < |db'.enlistments| && PaymentWellFormed(db'.payments[id])
    requires forall id :: id in db.payments ==> id in db'.payments
    requires AwaitsOrHadPayment(db'.enlistments[eid].status) ==> eid in db'.payments
    requires db'.catalogue == db.catalogue
    ensures Valid(db')
  {
    RewriteKeepsOneActive(db.enlistments, db'.enlistments, eid);
  }

  /** The same for a step that changes nothing but that enlistment and the history. */
  lemma StatusChangeKeepsValid(db: Db, db': Db, eid: EnlistmentId)
    requires Valid(db) && eid < |db.enlistments|
    requires OnlyEnlistmentChanged(db, db', eid)
    requires SameTerm(db'.enlistments[eid], db.enlistments[eid])
    requires db'.enlistments[eid].status !in {Rejected, ApprovedForPayment, Enrolled}
    requires db.enlistments[eid].status != Rejected
    ensures Valid(db')
  {
    RewriteKeepsValid(db, db', eid);
  }

  lemma PreapproveKeepsValid(db: Db, user: User, eid: EnlistmentId)
    requires Valid(db) && eid < |db.enlistments| && Preapprove(db, user, eid).Ok?
    ensures Valid(Preapprove(db, user, eid).value)
  {
    StatusChangeKeepsValid(db, Preapprove(db, user, eid).value, eid);
  }

  lemma ReturnKeepsValid(db: Db, user: User, eid: EnlistmentId, reason: string)
    requires Valid(db) && eid < |db.enlistments| && ReturnForRevision(db, user, eid, reason).Ok?
    ensures Valid(ReturnForRevision(db, user, eid, reason).value)
  {
    StatusChangeKeepsValid(db, ReturnForRevision(db, user, eid, reason).value, eid);
  }

  lemma FinanceReviewKeepsValid(db: Db, user: User, eid: EnlistmentId, approveIfOk: bool)
    requires Valid(db) && eid < |db.enlistments| && FinanceReviewStep(db, user, eid, approveIfOk).Ok?
    ensures Valid(FinanceReviewStep(db, user, eid, approveIfOk).value)
  {
    var db' := FinanceReviewStep(db, user, eid, approveIfOk).value;
    var e, e' := db.enlistments[eid], db'.enlistments[eid];
    assert e'.student == e.student && e'.schoolYear == e.schoolYear && e'.semester == e.semester;
    assert e'.status in {FinanceApproved, FinanceHoldBalance, FinanceHoldAcademic};
    StatusChangeKeepsValid(db, db', eid);
  }

  lemma FinalApproveKeepsValid(db: Db, user: User, eid: EnlistmentId, ids: seq<SubjectId>)
    requires Valid(db) && eid < |db.enlistments| && FinalApprove(db, user, eid, ids).Ok?
    ensures Valid(FinalApprove(db, user, eid, ids).value)
  {
    var db' := FinalApprove(db, user, eid, ids).value;
    var e, e' := db.enlistments[eid], db'.enlistments[eid];
    assert SameTerm(e', e) && SameTerm(e, e') && e'.status == ApprovedForPayment;
    forall k | 0 <= k < |db'.nextSubjects|
      ensures db'.nextSubjects[k].enlistment < |db'.enlistments|
    {
      var row := db'.nextSubjects[k];
      if row.enlistment != eid {
        assert row in db.nextSubjects;
      }
    }
    forall id | id in db'.payments
      ensures id < |db'.enlistments| && PaymentWellFormed(db'.payments[id])
    {
      if id == eid && eid !in db.payments {
        NewRecordDefaults();
      }
    }
    RewriteKeepsValid(db, db', eid);
  }

  lemma SetAmountKeepsValid(db: Db, user: User, eid: EnlistmentId, ea: Cents, ta: Cents)
    requires Valid(db) && eid < |db.enlistments| && SetAmount(db, user, eid, ea, ta).Ok?
    ensures Valid(SetAmount(db, user, eid, ea, ta).value)
  {
    RewriteKeepsValid(db, SetAmount(db, user, eid, ea, ta).value, eid);
  }

  lemma MarkPaidKeepsValid(db: Db, student: User, eid: EnlistmentId, amount: Cents, reference: string, kind: string)
    requires Valid(db) && eid < |db.enlistments| && MarkPaid(db, student, eid, amount, reference, kind).Ok?
    ensures Valid(MarkPaid(db, student, eid, amount, reference, kind).value)
  {
    RewriteKeepsValid(db, MarkPaid(db, student, eid, amount, reference, kind).value, eid);
  }

  lemma RecordPaymentKeepsValid(db: Db, user: User, eid: EnlistmentId, amount: Cents, reference: string, kind: string)
    requires Valid(db) && eid < |db.enlistments| && RecordPayment(db, user, eid, amount, reference, kind).Ok?
    ensures Valid(RecordPayment(db, user, eid, amount, reference, kind).value.db)
  {
    var rec := RecordPayment(db, user, eid, amount, reference, kind).value;
    var p := PaymentOf(db, eid);
    var k := rec.kind;
    assert Paid(rec.db.payments[eid], k) >= 0;
    assert Paid(rec.db.payments[eid], Other(k)) >= 0;
    RewriteKeepsValid(db, rec.db, eid);
  }

  /** Every service call keeps the constraints. */
  lemma {:induction false} ApplyKeepsValid(db: Db, op: Op)
    requires Valid(db)
    requires Apply(db, op).Ok?
    ensures Valid(Apply(db, op).value)
  {
    match op
    case SubmitOp(student, year, sem, category, program, notes) =>
      SubmitKeepsValid(db, student, year, sem, category, program, notes);
    case PreapproveOp(user, eid) => PreapproveKeepsValid(db, user, eid);
    case ReturnOp(user, eid, reason) => ReturnKeepsValid(db, user, eid, reason);
    case FinanceReviewOp(user, eid, approveIfOk) => FinanceReviewKeepsValid(db, user, eid, approveIfOk);
    case FinalApproveOp(user, eid, ids) => FinalApproveKeepsValid(db, user, eid, ids);
    case SetAmountOp(user, eid, ea, ta) => SetAmountKeepsValid(db, user, eid, ea, ta);
    case MarkPaidOp(student, eid, amount, reference, kind) => MarkPaidKeepsValid(db, student, eid, amount, reference, kind);
    case RecordPaymentOp(user, eid, amount, reference, kind) => RecordPaymentKeepsValid(db, user, eid, amount, reference, kind);
  }

  /** The state after a sequence of service calls; a refused call leaves the
      database as it was. */
  function Run(db: Db, ops: seq<Op>): Db
    decreases |ops|
  {
    if |ops| == 0 then db
    else
      match Apply(db, ops[0])
      case Ok(db') => Run(db', ops[1..])
      case Err(_) => Run(db, ops[1..])
  }

  /** The constraints hold after any sequence of service calls started from
      a database that keeps them. */
  lemma {:induction false} RunKeepsValid(db: Db, ops: seq<Op>)
    requires Valid(db)
    ensures Valid(Run(db, ops))
    decreases |ops|
  {
    if |ops| > 0 {
      match Apply(db, ops[0])
      case Ok(db') =>
        ApplyKeepsValid(db, ops[0]);
        RunKeepsValid(db', ops[1..]);
      case Err(_) =>
        RunKeepsValid(db, ops[1..]);
    }
  }

  /** In particular, the constraints hold after any sequence of service
      calls started from an empty database. */
  lemma RunFromEmptyKeepsValid(previousSubjects: seq<PreviousTermSubject>, catalogue: seq<SubjectId>, ops: seq<Op>)
    requires Distinct(catalogue)
    ensures Valid(Run(EmptyDb(previousSubjects, catalogue), ops))
  {
    RunKeepsValid(EmptyDb(previousSubjects, catalogue), ops);
  }

  // ----------------------------------------------- submission consequences

  /** Right after a successful submission the same student cannot submit
      again for that term. */
  lemma SubmitTwiceFails(db: Db, student: User, year: string, sem: string,
                         category: Option<nat>, program: Option<nat>, notes: string,
                         category2: Option<nat>, program2: Option<nat>, notes2: string)
    requires Submit(db, student, year, sem, category, program, notes).Ok?
    ensures Submit(Submit(db, student, year, sem, category, program, notes).value,
                   student, year, sem, category2, program2, notes2) == Err(AlreadySubmittedForTerm)
  {
    var db' := Submit(db, student, year, sem, category, program, notes).value;
    assert ActiveFor(db'.enlistments[|db.enlistments|], student.id, year, sem);
  }

  /** When every earlier enlistment of the student for the term was
      rejected, a new submission goes through. */
  lemma ResubmitAfterRejection(db: Db, student: User, year: string, sem: string,
                               category: Option<nat>, program: Option<nat>, notes: string)
    requires forall i :: 0 <= i < |db.enlistments| && db.enlistments[i].student == student.id
               && db.enlistments[i].schoolYear == year && db.enlistments[i].semester == sem
               ==> db.enlistments[i].status == Rejected
    ensures Submit(db, student, year, sem, category, program, notes).Ok?
  {
  }

  // ------------------------------------------------------ payment sanity

  /** Under the constraints, claiming or recording a payment always finds
      the payment created at final approval. */
  lemma PaymentExistsWhenPayable(db: Db, eid: EnlistmentId)
    requires Valid(db) && eid < |db.enlistments|
    requires db.enlistments[eid].status == ApprovedForPayment
    ensures eid in db.payments
    ensures PaymentOf(db, eid) == db.payments[eid]
  {
  }

  /** Without a payment record nothing can be claimed: the find-or-create
      record has no enlistment fee set and the enlistment fee unpaid. */
  lemma ClaimNeedsFees(db: Db, student: User, eid: EnlistmentId, amount: Cents, reference: string, kind: string)
    requires eid < |db.enlistments| && eid !in db.payments
    ensures MarkPaid(db, student, eid, amount, reference, kind).Err?
  {
  }

  // ------------------------------------------------------ a worked example

  /** Dues of 500.00 (enlistment fee) and 2000.00 (tuition): a 500.00
      enlistment payment settles the first bucket; a 2500.00 tuition payment
      then fills tuition to 2000.00, credits 500.00 to the student's balance
      and confirms the enrollment. */
  lemma {:induction false} DownpaymentThenTuition(db: Db, finance: User, eid: EnlistmentId)
    requires eid < |db.enlistments| && db.enlistments[eid].status == ApprovedForPayment
    requires HasRole(finance, {Finance})
    requires eid in db.payments
    requires db.payments[eid].enlistmentAmount == 50000 && db.payments[eid].tuitionAmount == 200000
    requires db.payments[eid].enlistmentPaidAmount == 0 && db.payments[eid].tuitionPaidAmount == 0
    requires Balance(db, db.enlistments[eid].student) == 0
    ensures var first := RecordPayment(db, finance, eid, 50000, "", "ENLISTMENT");
      && first.Ok?
      && first.value.db.payments[eid].enlistmentPaid
      && first.value.db.enlistments[eid].status == ApprovedForPayment
      && var second := RecordPayment(first.value.db, finance, eid, 250000, "", "TUITION");
      && second.Ok?
      && second.value.db.payments[eid].tuitionPaidAmount == 200000
      && second.value.overpayment == 50000
      && Balance(second.value.db, db.enlistments[eid].student) == -50000
      && second.value.db.enlistments[eid].status == Enrolled
  {
    assert Upper("ENLISTMENT") == "ENLISTMENT";
    assert Upper("TUITION") == "TUITION";
    var first := RecordPayment(db, finance, eid, 50000, "", "ENLISTMENT");
    assert first.value.kind == EnlistmentFee;
    var second := RecordPayment(first.value.db, finance, eid, 250000, "", "TUITION");
    assert second.value.kind == TuitionFee;
  }
}
